=== FILE: README.md ===
# bass-companion: a Dafny model of the practice store and its rules

bass-companion is a browser app for logging bass practice. A practice **item** is a riff, a
BassBuzz lesson, an exercise, a warm-up, a theory topic, a resource or a stamina drill. Each
**log** records one session: a five-minute "burst" timed in the app, or a BassBuzz workout.
Each log awards "notes" (♪). This project models the app's core as pure Dafny functions over
immutable data and proves what they do.

The core has three parts:

- **The collection store.** The adapter keeps two browser-storage slots, `practice_items`
  and `practice_logs`. It offers `init`, `listItems`, `upsertItem`, `deleteItem` (which also
  deletes the item's logs), `listLogs` (filters, then sorts newest first), `addLog` and
  `deleteLog`. Each slot is an `Option<seq<…>>`. `None` stands for a missing key or an
  empty string. Those are the only falsy values the storage can return, and the code treats
  them alike. Timestamps are integers in milliseconds.
- **The kind table.** A constant map from each of the seven kinds to:
  - its display name;
  - its field schema (type, required flag, default, bounds);
  - the notes a burst on it awards.
- **The application's rules.** These are:
  - recent-item selection;
  - the item preview line;
  - the burst timer and its modal, as an explicit state record that takes time as an
    integer;
  - the minutes and notes a burst records;
  - the BassBuzz lesson order, completion toggle and workout log;
  - the notes total;
  - validation and field defaulting when an item is saved.

Modules, one per file:

| module | file | what it holds |
|---|---|---|
| `Wrappers` | wrappers.dfy | `Option`, `Result` |
| `Seqs` | seqs.dfy | order-preserving `Filter`, `Map`, `Sum`, subsequences |
| `Sorting` | sorting.dfy | a stable insertion sort over a total preorder; sortedness and stability |
| `Text` | text.dfy | JavaScript `trim`, `parseInt` (decimal), number rendering, `padStart(2, '0')` |
| `Records` | records.dfy | `Item`, `Log`, field `Value`s and JavaScript truthiness |
| `Kinds` | kinds.dfy | `KIND_DEFINITIONS` and the burst reward rule |
| `Store` | store.dfy | `LocalStoragePersistence` |
| `Recent` | recent.dfy | `_getRecentItems` |
| `Preview` | preview.dfy | `_getItemPreview` |
| `Burst` | burst.dfy | `openBurstModal`, `startTimer` and its tick, `stopTimer`, `closeBurstModal`, `completeBurst` |
| `Notes` | notes.dfy | `updateNotesCount` |
| `BassBuzz` | bassbuzz.dfy | `renderBassBuzz` order, `toggleLessonCompleted`, `logBassBuzzWorkout` |
| `ItemForm` | itemform.dfy | `saveItem` |

Two behaviours of the source are modelled as written:

- **Stored log order.** `addLog`, `deleteItem` and `deleteLog` read the logs through
  `listLogs()`. So every write stores the logs newest first, and `addLog` then appends the
  new log at the end, out of order.
- **The burst start time is never cleared.** `closeBurstModal` leaves `burstStartTime` as it
  is. A burst that is opened and completed without starting its timer therefore measures
  from an earlier burst's start (`Burst.StaleStartTime`).

## Model

| member | source | states |
|---|---|---|
| Store.Init | persistence/LocalStoragePersistence.js:24-32 | `init` fills only an absent or empty slot with an empty collection and leaves a filled slot untouched |
| Store.InitIdempotent | persistence/LocalStoragePersistence.js:24-32 | calling `init` twice equals calling it once, and `init` changes no collection's contents |
| Store.ListItems | persistence/LocalStoragePersistence.js:38-41 | `listItems` reads exactly the collection `init` would leave in the slot: an empty one for a missing or empty slot |
| Store.FindIndex | persistence/LocalStoragePersistence.js:45 | `findIndex` yields the first position holding the id, or nothing when no item has it |
| Store.FindItem | app.js:818 | `find` yields an item with the id exactly when one exists, and then the first item with that id |
| Store.FindIndexFirst | persistence/LocalStoragePersistence.js:45 | if `k` is the first position holding the id, `findIndex` returns `k` |
| Store.UpsertItem | persistence/LocalStoragePersistence.js:43-56 | a new id is appended (old items form the prefix); an existing id replaces the first match in place, all other positions unchanged; the logs are untouched; the argument is returned |
| Store.UpsertIdempotent | persistence/LocalStoragePersistence.js:43-56 | upserting the same record twice leaves the same store as upserting it once |
| Store.UpsertThenFind | persistence/LocalStoragePersistence.js:43-56 | after an upsert, looking the id up yields exactly the upserted record |
| Store.NewerOrSameIsTotalPreorder | persistence/LocalStoragePersistence.js:92 | the newest-first comparator is a total preorder, so the sort is well defined |
| Store.IdsOfKind | persistence/LocalStoragePersistence.js:83-84 | the ids collected for the `kind` filter are exactly the ids of items of that kind |
| Store.FromStageFilters | persistence/LocalStoragePersistence.js:75-77 | the `from` stage keeps exactly the logs at or after `from` (inclusive), and all logs when `from` is absent |
| Store.ToStageFilters | persistence/LocalStoragePersistence.js:78-80 | the `to` stage keeps exactly the logs at or before `to` (inclusive), and all logs when `to` is absent |
| Store.KindStageFilters | persistence/LocalStoragePersistence.js:81-86 | the `kind` stage keeps exactly the logs whose item has that kind |
| Store.ItemIdStageFilters | persistence/LocalStoragePersistence.js:87-89 | the `itemId` stage keeps exactly the logs of that item |
| Store.MatchingIsSelection | persistence/LocalStoragePersistence.js:70-90 | the filter stages, applied in sequence, select exactly the stored logs that satisfy every filter given, in stored order |
| Store.ListLogs | persistence/LocalStoragePersistence.js:70-95 | `listLogs` returns each selected stored log as often as it is stored, and nothing else, ordered newest first |
| Store.ListLogsStable | persistence/LocalStoragePersistence.js:91-94 | logs with equal timestamps keep their stored relative order |
| Store.ListAllLogs | persistence/LocalStoragePersistence.js:70-95 | without filters, `listLogs` is a permutation of the stored logs, newest first |
| Store.LogsKeeping | persistence/LocalStoragePersistence.js:65-66 | `listLogs().filter(keep)` holds every kept stored log as often as it is stored, newest first, and the kept logs of each timestamp in stored order |
| Store.ListAllLogsStable | persistence/LocalStoragePersistence.js:92 | without filters, `listLogs` lists the logs of each timestamp in stored order |
| Store.ItemsWithout | persistence/LocalStoragePersistence.js:60-61 | removing an id drops exactly the items with that id, keeps the others in order, and does nothing when the id is absent |
| Store.DeleteItem | persistence/LocalStoragePersistence.js:59-68 | deleting an item removes every item and every log with that id; other items keep their order, and other logs are all kept, rewritten newest first with the logs of each timestamp in stored order |
| Store.SubsequenceNewestFirst | persistence/LocalStoragePersistence.js:65-67 | dropping logs from a newest-first list leaves it newest first |
| Store.AddLog | persistence/LocalStoragePersistence.js:97-102 | `addLog` stores a permutation of the old logs, newest first with the logs of each timestamp in stored order, then the new log last; items are untouched and the log is returned |
| Store.DeleteLog | persistence/LocalStoragePersistence.js:104-108 | `deleteLog` removes every log with that id and keeps all others, newest first with the logs of each timestamp in stored order; items are untouched |
| Sorting.SortBy | persistence/LocalStoragePersistence.js:92 | the sort returns the same elements: same length, same multiset, and an element is in the result exactly when it is in the input (sortedness and stability are the two rows below) |
| Sorting.SortBySorted | persistence/LocalStoragePersistence.js:92 | sorting with a total preorder yields a sorted permutation |
| Sorting.SortByStable | persistence/LocalStoragePersistence.js:92 | the sort is stable: elements that compare equal keep their relative order |
| Kinds.BurstReward | app.js:416-417 | a burst never awards fewer than one note |
| Kinds.BurstRewardByKind | app.js:416-417 | a burst on a BassBuzz lesson awards two notes; any other kind, including a resource (reward 0) or an unregistered kind, awards one |
| Kinds.SevenKinds | kind-definitions.js:10-157 | the table registers exactly the seven kinds riff, bassbuzz, exercise, warmup, theory, resource and stamina |
| Kinds.DefaultRewards | kind-definitions.js:29 | the default rewards are riff 1, bassbuzz 2, exercise 1, warmup 1, theory 1, resource 0, stamina 1 (also lines 56, 75, 88, 107, 126, 155) |
| Kinds.FieldsWellFormed | kind-definitions.js:10-157 | every field with both bounds has min ≤ max, and every numeric default lies within its bounds |
| Kinds.NumericDefaults | kind-definitions.js:132-147 | a stamina duration defaults to 60 in [30, 600] and its bpm to 120 in [40, 300]; a riff's target BPM defaults to 100 in [40, 300] (lines 14-21) |
| Kinds.RequiredFields | kind-definitions.js:35-48 | BassBuzz module and lesson are required numbers with no default, and a resource's link is required (lines 113-117) |
| Text.NatToString | app.js:390 | a number's decimal text is all digits, with no leading zero |
| Text.NatToStringRoundTrip | app.js:390 | reading a number's decimal text back yields the number |
| Text.IntToString | app.js:256-266 | a number interpolated into text is non-empty and starts with `-` exactly when it is negative; its partner `Text.ParseIntRoundTrip` reads it back to the same number |
| Text.ParseIntRoundTrip | app.js:1000 | `parseInt` of an integer's decimal text yields that integer, whatever non-digit text follows it |
| Text.ParseInt | app.js:1000 | `parseInt` yields a number exactly when, after leading whitespace, the text starts with a digit or with a sign followed by a digit; otherwise NaN |
| Text.TrimStartSpec | app.js:980 | trimming the start removes exactly the leading whitespace: what is dropped is all whitespace and what is kept does not start with whitespace |
| Text.TrimEndSpec | app.js:980 | trimming the end removes exactly the trailing whitespace: what is dropped is all whitespace and what is kept does not end with whitespace |
| Text.Trim | app.js:980-985 | the trimmed title is the middle slice of the input with only whitespace cut off on either side; it is empty exactly when the input consists of whitespace only, and otherwise starts and ends with a non-whitespace character |
| Text.Pad2 | app.js:390 | `padStart(2, '0')` of a number below 100 is two digits denoting it |
| Recent.FirstOccurrences | app.js:292-299 | the distinct ids of a sequence, each once, ordered by where each first occurs |
| Recent.Take | app.js:294 | the first `min(limit, n)` elements, none for a non-positive limit |
| Recent.OccurrencesSnoc | app.js:292-299 | appending one id keeps the first-occurrence list distinct, complete and ordered by first position: a new id is added at the end, a seen one changes nothing |
| Recent.RecentItemIds | app.js:286-299 | the loop collects exactly the first `limit` distinct item ids of the newest-first logs |
| Recent.Resolve | app.js:301 | the resolved items are the ids with a matching item, in order, each the first item with that id |
| Recent.FilterDistinct | app.js:301 | dropping unknown ids keeps the ids distinct |
| Recent.GetRecentItems | app.js:286-302 | at most `limit` items with distinct ids, ordered by recency; unknown ids are dropped after the limit is applied, and every result is an item of the list |
| Preview.ItemPreview | app.js:246-284 | only the five handled kinds have a preview, which is never empty; stamina drills and BassBuzz lessons always have one; a resource or exercise previews only its non-empty text, at most 43 characters long |
| Preview.Truncate | app.js:252-253 | text of at most 40 characters is kept; longer text becomes its first 40 characters followed by `...` |
| Preview.TextPreviewTruncates | app.js:250-283 | a riff's notes, a resource's description or an exercise's focus previews as its first min(40, n) characters, with `...` appended exactly when the text is longer |
| Preview.RiffTargetPreview | app.js:255-257 | a riff without notes previews its target tempo as `Target: <bpm> BPM` |
| Preview.MissingTextNoPreview | app.js:250-283 | a resource or exercise without its text, or a riff without notes or target tempo, has no preview |
| Preview.NoPreviewKinds | app.js:249-283 | warm-ups, theory items and unregistered kinds have no preview |
| Preview.StaminaPreview | app.js:260-263 | a stamina drill previews as `<duration>s @ <bpm> BPM`, with a missing value shown as 0 |
| Preview.BassBuzzPreview | app.js:265-266 | a BassBuzz lesson previews as `M<module> L<lesson>`, with a missing value shown as `?` |
| Burst.ClockText | app.js:388-390 | the `m:ss` countdown text denotes exactly the seconds it was made from, and its minutes carry no leading zero |
| Burst.ElapsedSeconds | app.js:371 | the elapsed whole seconds are the floor of the elapsed milliseconds over 1000 |
| Burst.Remaining | app.js:372 | the countdown is 300 minus the whole seconds elapsed since the start (the elapsed milliseconds lie in [1000·(300 − r), 1000·(300 − r) + 1000)); it is still positive exactly while less than five minutes (300000 ms) have passed since the start, and never exceeds 300 s once time has not gone backwards |
| Burst.OpenBurstModal | app.js:334-353 | opening selects the item, shows exactly `5:00` (the full five-minute countdown as `m:ss`) and leaves the start time as it was |
| Burst.StartTimer | app.js:363-368 | starting records the start time and runs the timer; it hides the start control and shows the stop control, and the done control keeps its state |
| Burst.StopTimer | app.js:394-403 | stopping clears the timer and shows only the done control; item, start time and display are kept |
| Burst.Tick | app.js:370-391 | a tick computes remaining = 300 − floor(elapsed ms / 1000); at ≤ 0 it stops the timer and shows `0:00`, otherwise it shows the `m:ss` text of the remaining seconds |
| Burst.CloseBurstModal | app.js:355-361 | closing stops a running timer, hides the modal and clears the current item, but keeps the start time |
| Burst.RoundDiv | app.js:412 | `Math.round(a / b)` is the integer nearest to a/b, with halves rounding up |
| Burst.BurstMinutes | app.js:408-413 | 5 minutes when no start time is recorded, otherwise the elapsed minutes rounded, at least 1 |
| Burst.RuntimeValues | app.js:420-423 | a burst records `bpm` only, and only for a riff with a typed tempo, as `parseInt` of the typed text |
| Burst.BurstLog | app.js:426-434 | the burst log has a fresh id, the current time, the current item, mode `burst`, at least one minute and at least one note |
| Burst.CompleteBurst | app.js:405-451 | without a current item nothing changes; otherwise the exact burst log is appended after the old logs, rewritten newest first with equal timestamps in stored order, the item becomes the last practised one and the modal closes |
| Burst.BurstNotesAwarded | app.js:416-417 | a completed burst records two notes for a BassBuzz lesson and one note for any other kind |
| Burst.ExerciseBurstScenario | app.js:409-413 | a 65-second exercise burst records one minute and one note |
| Burst.StaleStartTime | app.js:355-361 | a later burst completed without starting its timer measures from the earlier start: an hour later it records 60 minutes, not 5 |
| Notes.NotesCount | app.js:1047-1051 | the notes count, summed over the newest-first `listLogs()`, equals the sum of `notesAwarded` over the stored logs |
| Notes.AddLogAddsNotes | app.js:1047-1051 | adding a log raises the notes count by exactly that log's notes |
| BassBuzz.LessonOrderIsTotalPreorder | app.js:774-779 | the module-then-lesson comparator is a total preorder |
| BassBuzz.BassBuzzLessons | app.js:764-779 | the lesson list holds exactly the BassBuzz items, as often as stored, ascending by module and then lesson, with a missing value read as 0 |
| BassBuzz.BassBuzzLessonsStable | app.js:774-779 | lessons with the same module and lesson keep their stored order |
| BassBuzz.ToggleLessonCompleted | app.js:816-827 | toggling a missing id changes nothing; otherwise it flips the completed flag of the first item with that id and changes nothing else |
| BassBuzz.FlipTwice | app.js:823 | negating `completed` twice restores its truth value, and restores the whole record if and only if `completed` was set (an unset flag comes back as `false`) |
| BassBuzz.ToggleTwice | app.js:816-827 | toggling a lesson twice restores whether it is completed, and restores the whole store when the flag was set |
| BassBuzz.LogBassBuzzWorkout | app.js:829-856 | without a workout selector nothing changes; otherwise a log with mode `bassbuzz-<type>`, 0 minutes, the workout type and 2 notes is appended after the old logs, rewritten newest first with equal timestamps in stored order, raising the notes count by 2 |
| ItemForm.FieldValue | app.js:999-1003 | typed text is stored as typed in a text or URL field, and typed text in a number field stores its `parseInt` value (NaN when it has no leading digits); a number field with a numeric (or no) default never stores a string; an empty input never yields NaN: it stores a truthy default when there is one, and otherwise 0 or the empty string, since it stores a truthy value only if it is that default |
| ItemForm.CollectValues | app.js:991-1006 | an unregistered kind collects no values; a registered one collects one value per schema field whose input is present |
| ItemForm.SaveItem | app.js:979-1023 | a blank trimmed title or an empty kind is refused; otherwise the saved item keeps the edited id (or takes a fresh one), carries `completed` only for BassBuzz, and is upserted |
| ItemForm.TypedNumberStored | app.js:1000 | a number typed into a number field is stored as that number |
| ItemForm.EmptyInputsTakeDefaults | app.js:999-1002 | empty inputs give a stamina drill 60 s at 120 BPM, a riff a 100 BPM target, and a BassBuzz lesson module and lesson 0 |
| ItemForm.DefaultsWithinBounds | app.js:1000 | a default taken for an empty number input lies within that field's bounds |

## Left out

- The DOM: `innerHTML` templating, `alert`/`confirm`, event wiring, view switching and HTML escaping. These are user-interface glue.
- Audio and vibration (`_playBurstEndSound`, `_vibrate`): browser APIs with no statable behaviour.
- `_generateId` is random. Every operation that needs an id takes a `freshId` parameter instead.
- `Date.now()` and `new Date().toISOString()`. The current time is an integer parameter, and `dateTime` is an integer timestamp.
- Invalid dates. In the source, comparing with `NaN` makes a filter reject a log and makes the sort comparator return `NaN`.
- `renderWeek` and `showDayDetail`: they bucket logs by day using local-timezone calendar arithmetic.
- `exportData`: its behaviour belongs to the JSON library and the download API.
- JSON encoding and browser storage. Each slot is an optional sequence, and malformed JSON is not handled by the code either.
- Promises, `async` and multi-tab write races. Every operation completes atomically in the model.
- persistence/IPersistence.js: an interface whose methods only throw. The store is modelled directly on the adapter.
- The seed data (`_seedDataIfEmpty`): constant content.
- `getKindDefinitions`: it returns the table, which is `Kinds.Definitions`.
- `startBurstOnItem`, `startBurstOnLastItem` and `_loadLastItem`: lookups that open the modal or render a card. `Burst.CompleteBurst` records the `lastItemId` slot, but that slot's persistence is left out.
- The item-detail and item-selector views, the item list, and loading an item into the form (`_loadItemToForm`, `_renderKindFields`).
- HTML constraint validation of the form (`required`, `min`, `max`, and the `type="number"` input). The model accepts any input text. With empty inputs a BassBuzz lesson therefore gets module and lesson 0.
- Text.ParseInt: results are exact only for |n| ≤ 2^53. JavaScript numbers are IEEE doubles, so `parseInt` of a longer digit run rounds (`"9007199254740993"` reads as 9007199254740992), while the model keeps the exact integer.
- Text.ParseInt: decimal only. The source's `parseInt` without a radix also reads a `0x` prefix as hexadecimal.
- Text.IntToString: renders every integer in plain decimal. JavaScript switches to exponent notation from 1e21 on.
- Text: strings are sequences of characters, not UTF-16 code units. The 40-character preview cut counts characters.
- ItemForm.TypedNumberStored: exact only for |n| ≤ 2^53; above that JavaScript stores the nearest double, not `n`.
- Text.ParseIntRoundTrip: exact only for |n| ≤ 2^53, for the same reason.
- Numbers in general: timestamps, minutes and note totals are unbounded integers. In the source they are doubles, exact up to 2^53, which real timestamps and totals stay far below.
- Burst.RoundDiv: models `Math.round` exactly on rationals. The floating-point division that precedes it in the source is not modelled.
- Records.Value: a field value is a number, a string or `NaN`. Other JSON values are not modelled.
- Preview.TextPreviewTruncates: only for a string field. In the source, a truthy non-string text value makes `substring` throw; the model treats it as absent text.
- BassBuzz.BassBuzzLessons: a string module or lesson value is read as 0. JavaScript would subtract it after numeric coercion.
- The runtime BPM input that `openBurstModal` prefills from a riff's `targetBpm` (app.js:344-350): it is a form control's contents. `Burst.CompleteBurst` takes whatever text the input holds as its `runtimeBpm` parameter.
- The countdown's initial text and control visibility come from the HTML page. `Burst.Initial` takes those that `openBurstModal` resets to.

=== FILE: bassbuzz.dfy ===
/** The BassBuzz lesson list: its ordering, the completion checkbox and workout logging. */
module BassBuzz {
  import opened Wrappers
  import opened Seqs
  import opened Sorting
  import opened Records
  import opened Store
  import Notes

  /** `item.values?.name || 0` for a numeric field. */
  function NumberOr0(item: Item, name: string): int {
    if name in item.values && item.values[name].Num? then item.values[name].n else 0
  }

  /** The lesson-list comparator: by module, then by lesson, both ascending. */
  predicate LessonOrder(a: Item, b: Item) {
    var ma := NumberOr0(a, "module");
    var mb := NumberOr0(b, "module");
    ma < mb || (ma == mb && NumberOr0(a, "lesson") <= NumberOr0(b, "lesson"))
  }

  lemma LessonOrderIsTotalPreorder()
    ensures TotalPreorder(LessonOrder)
  {
  }

  /** The lesson list of `renderBassBuzz`: the BassBuzz items, sorted stably by module then lesson. */
  function BassBuzzLessons(items: seq<Item>): (r: seq<Item>)
    ensures forall x :: x in r <==> x in items && x.kind == "bassbuzz"
    ensures forall x :: multiset(r)[x] == if x.kind == "bassbuzz" then multiset(items)[x] else 0
    ensures forall i, j :: 0 <= i < j < |r| ==>
              NumberOr0(r[i], "module") < NumberOr0(r[j], "module")
              || (NumberOr0(r[i], "module") == NumberOr0(r[j], "module")
                  && NumberOr0(r[i], "lesson") <= NumberOr0(r[j], "lesson"))
  {
    var lessons := Filter(items, (x: Item) => x.kind == "bassbuzz");
    LessonOrderIsTotalPreorder();
    SortBySorted(lessons, LessonOrder);
    var r := SortBy(lessons, LessonOrder);
    assert forall i, j :: 0 <= i < j < |r| ==> LessonOrder(r[i], r[j]);
    r
  }

  /** Lessons with the same module and lesson number keep their stored order. */
  lemma BassBuzzLessonsStable(items: seq<Item>, m: int, l: int)
    ensures Filter(BassBuzzLessons(items), (x: Item) => NumberOr0(x, "module") == m && NumberOr0(x, "lesson") == l)
         == Filter(Filter(items, (x: Item) => x.kind == "bassbuzz"),
                   (x: Item) => NumberOr0(x, "module") == m && NumberOr0(x, "lesson") == l)
  {
    var lessons := Filter(items, (x: Item) => x.kind == "bassbuzz");
    var c := LessonKey(m, l);
    var P := (x: Item) => NumberOr0(x, "module") == m && NumberOr0(x, "lesson") == l;
    var T := (y: Item) => Tied(LessonOrder, y, c);
    forall y: Item ensures T(y) == P(y) {
      TiedWithLesson(y, c, m, l);
    }
    LessonOrderIsTotalPreorder();
    SortByStable(lessons, LessonOrder, c);
    assert BassBuzzLessons(items) == SortBy(lessons, LessonOrder);
    FilterExt(SortBy(lessons, LessonOrder), T, P);
    FilterExt(lessons, T, P);
  }

  /** An item that sits at module `m`, lesson `l` and nowhere else in the order. */
  function LessonKey(m: int, l: int): (c: Item)
    ensures NumberOr0(c, "module") == m && NumberOr0(c, "lesson") == l
  {
    Item("", "", "", map["module" := Num(m), "lesson" := Num(l)], false, false, None)
  }

  lemma TiedWithLesson(y: Item, c: Item, m: int, l: int)
    requires NumberOr0(c, "module") == m && NumberOr0(c, "lesson") == l
    ensures Tied(LessonOrder, y, c) <==> NumberOr0(y, "module") == m && NumberOr0(y, "lesson") == l
  {
  }

  /** `toggleLessonCompleted(id)`: flip the first item with `id` and upsert it; no-op when absent. */
  function ToggleLessonCompleted(s: Store, id: string): (r: Store)
    ensures FindItem(ListItems(s), id).None? ==> r == s
    ensures r.logs == s.logs
    ensures forall k :: FirstWithId(ListItems(s), id, k) ==>
              var x := ListItems(s)[k];
              && |ListItems(r)| == |ListItems(s)|
              && ListItems(r)[k] == x.(completed := Some(!IsCompleted(x)))
              && (forall j :: 0 <= j < |ListItems(s)| && j != k ==> ListItems(r)[j] == ListItems(s)[j])
  {
    match FindItem(ListItems(s), id)
    case None => s
    case Some(x) =>
      UpsertItem(s, Flip(x)).0
  }

  /** `item.completed = !item.completed`. */
  function Flip(x: Item): Item {
    x.(completed := Some(!IsCompleted(x)))
  }

  lemma FlipTwice(x: Item)
    ensures IsCompleted(Flip(Flip(x))) == IsCompleted(x)
    ensures Flip(Flip(x)) == x <==> x.completed.Some?
  {
    if x.completed.Some? {
      var b := x.completed.value;
      assert IsCompleted(x) == b;
      assert Flip(Flip(x)).completed == Some(b);
    }
  }

  /** Toggling twice restores whether the lesson is completed, and restores the store
      itself when the item already had a `completed` field. */
  lemma ToggleTwice(s: Store, id: string, k: nat)
    requires FirstWithId(ListItems(s), id, k)
    ensures var twice := ToggleLessonCompleted(ToggleLessonCompleted(s, id), id);
            && |ListItems(twice)| == |ListItems(s)|
            && IsCompleted(ListItems(twice)[k]) == IsCompleted(ListItems(s)[k])
            && (ListItems(s)[k].completed.Some? ==> twice == s)
  {
    var items := ListItems(s);
    var x0 := items[k];
    FindIndexFirst(items, id, k);
    var x1 := Flip(x0);
    assert FindItem(items, id) == Some(x0);
    var once := ToggleLessonCompleted(s, id);
    assert once == UpsertItem(s, x1).0;
    assert ListItems(once) == items[k := x1];
    assert FirstWithId(ListItems(once), id, k);
    FindIndexFirst(ListItems(once), id, k);
    assert FindItem(ListItems(once), id) == Some(x1);
    var x2 := Flip(x1);
    var twice := ToggleLessonCompleted(once, id);
    assert twice == UpsertItem(once, x2).0;
    assert ListItems(twice) == items[k := x2];
    if x0.completed.Some? {
      FlipTwice(x0);
      assert ListItems(twice) == items;
    }
  }

  /** `logBassBuzzWorkout(id)`: with a workout selected, append a zero-minute log worth two notes. */
  function LogBassBuzzWorkout(s: Store, itemId: string, workoutType: Option<string>, freshId: string, now: int): (r: Store)
    ensures workoutType.None? ==> r == s
    ensures workoutType.Some? ==>
              && r.items == s.items
              && |StoredLogs(r)| == |StoredLogs(s)| + 1
              && StoredLogs(r)[|StoredLogs(s)|]
                   == Log(freshId, now, itemId, "bassbuzz-" + workoutType.value, 0,
                          map["workoutType" := Str(workoutType.value)], 2)
              && multiset(StoredLogs(r)[..|StoredLogs(s)|]) == multiset(StoredLogs(s))
              && NewestFirst(StoredLogs(r)[..|StoredLogs(s)|])
              && (forall t :: AtTime(StoredLogs(r)[..|StoredLogs(s)|], t) == AtTime(StoredLogs(s), t))
              && Notes.NotesCount(r) == Notes.NotesCount(s) + 2
  {
    match workoutType
    case None => s
    case Some(w) =>
      var log := Log(freshId, now, itemId, "bassbuzz-" + w, 0, map["workoutType" := Str(w)], 2);
      Notes.AddLogAddsNotes(s, log);
      AddLog(s, log).0
  }
}

=== FILE: burst.dfy ===
/**
 * The burst modal: a five-minute countdown over an item, its timer, and
 * `completeBurst`, which records the session as a log. Wall-clock readings
 * (`Date.now()`, in milliseconds) are explicit `now` parameters.
 */
module Burst {
  import opened Wrappers
  import opened Records
  import opened Store
  import Kinds
  import Text

  /** `burstDuration`: five minutes, in seconds. */
  const BurstDuration := 5 * 60

  /** The minutes recorded for a burst whose timer was never started. */
  const FallbackMinutes := 5

  /** Which of the modal's start, stop and done controls are shown. */
  datatype Controls = Controls(start: bool, stop: bool, done: bool)

  /** The controller fields the burst flow reads and writes. */
  datatype BurstState = BurstState(
    modalOpen: bool,
    current: Option<Item>,    // currentBurstItem
    timerActive: bool,        // a periodic tick is registered (burstTimer)
    startTime: Option<int>,   // burstStartTime
    display: string,          // the countdown text
    controls: Controls)

  /** The fields as the constructor leaves them; display and controls are those the modal resets to. */
  const Initial := BurstState(false, None, false, None, "5:00", Controls(true, false, false))

  datatype Phase = Closed | Idle | Running | Finished

  /** The state-machine view of the controller fields. */
  function PhaseOf(b: BurstState): Phase {
    if !b.modalOpen then Closed
    else if b.timerActive then Running
    else if b.controls.done then Finished
    else Idle
  }

  /** `m:ss` for a number of seconds: the minutes unpadded, the seconds in two digits. The text
      denotes exactly `seconds`, and its minutes carry no leading zero. */
  function ClockText(seconds: nat): (r: string)
    ensures ParseClock(r) == Some(seconds)
    ensures |r| >= 4 && (r[0] == '0' ==> r[1] == ':')
  {
    var mm := Text.NatToString(seconds / 60);
    var ss := Text.Pad2(seconds % 60);
    Text.NatToStringRoundTrip(seconds / 60);
    ParseClockOf(mm, ss);
    var r := mm + ":" + ss;
    assert r == mm + [':'] + ss;
    assert r[0] == mm[0] && (|mm| == 1 ==> r[1] == ':');
    r
  }

  /** The position of the first `c` in `s`. */
  function IndexOf(s: string, c: char): (r: Option<nat>)
    ensures r.Some? ==> r.value < |s| && s[r.value] == c && c !in s[..r.value]
    ensures r.None? ==> c !in s
  {
    if |s| == 0 then None
    else if s[0] == c then Some(0)
    else match IndexOf(s[1..], c)
      case Some(k) =>
        assert s[..k + 1] == [s[0]] + s[1..][..k];
        Some(k + 1)
      case None => None
  }

  /** Reads an `m:ss` countdown text back as a number of seconds. */
  function ParseClock(s: string): Option<nat> {
    match IndexOf(s, ':')
    case None => None
    case Some(k) => ClockValue(s[..k], s[k + 1..])
  }

  /** The seconds denoted by the minute digits and the two second digits around the colon. */
  function ClockValue(minutes: string, seconds: string): Option<nat> {
    if 1 <= |minutes| && Text.AllDigits(minutes) && |seconds| == 2 && Text.AllDigits(seconds)
       && Text.DigitsValue(seconds) < 60
    then Some(60 * Text.DigitsValue(minutes) + Text.DigitsValue(seconds))
    else None
  }

  /** An `m:ss` text made of a digit run, a colon and two digits reads back as its value. */
  lemma ParseClockOf(mm: string, ss: string)
    requires 1 <= |mm| && Text.AllDigits(mm)
    requires |ss| == 2 && Text.AllDigits(ss) && Text.DigitsValue(ss) < 60
    ensures ParseClock(mm + [':'] + ss) == Some(60 * Text.DigitsValue(mm) + Text.DigitsValue(ss))
  {
    var s := mm + [':'] + ss;
    DigitsHaveNoColon(mm);
    IndexOfAfter(mm, ss, ':');
    assert IndexOf(s, ':') == Some(|mm|);
    assert ParseClock(s) == ClockValue(s[..|mm|], s[|mm| + 1..]);
    SplitAround(mm, ':', ss);
    assert ClockValue(s[..|mm|], s[|mm| + 1..]) == ClockValue(mm, ss);
    ClockValueOf(mm, ss);
  }

  lemma ClockValueOf(mm: string, ss: string)
    requires 1 <= |mm| && Text.AllDigits(mm)
    requires |ss| == 2 && Text.AllDigits(ss) && Text.DigitsValue(ss) < 60
    ensures ClockValue(mm, ss) == Some(60 * Text.DigitsValue(mm) + Text.DigitsValue(ss))
  {
  }

  lemma DigitsHaveNoColon(s: string)
    requires Text.AllDigits(s)
    ensures ':' !in s
  {
    forall k | 0 <= k < |s|
      ensures s[k] != ':'
    {
      assert Text.IsDigit(s[k]);
    }
  }

  lemma SplitAround<T>(a: seq<T>, c: T, b: seq<T>)
    ensures (a + [c] + b)[..|a|] == a && (a + [c] + b)[|a| + 1..] == b
  {
  }

  /** The first `c` in `a + [c] + b` is the one after `a` when `a` holds none. */
  lemma {:induction false} IndexOfAfter(a: string, b: string, c: char)
    requires c !in a
    ensures IndexOf(a + [c] + b, c) == Some(|a|)
  {
    var s := a + [c] + b;
    if |a| == 0 {
      assert s[0] == c;
    } else {
      assert s[0] == a[0];
      assert s[1..] == a[1..] + [c] + b;
      IndexOfAfter(a[1..], b, c);
    }
  }

  /** `openBurstModal(item)`: select the item and reset the countdown and controls. */
  function OpenBurstModal(b: BurstState, item: Item): (r: BurstState)
    ensures PhaseOf(r) == (if b.timerActive then Running else Idle)
    ensures r.current == Some(item)
    ensures r.display == "5:00" && r.display == ClockText(BurstDuration)
    ensures r.startTime == b.startTime
  {
    assert ClockText(BurstDuration) == "5:00" by {
      assert Text.NatToString(5) == "5";
      assert Text.Pad2(0) == "00";
    }
    b.(modalOpen := true, current := Some(item), display := "5:00", controls := Controls(true, false, false))
  }

  /** `startTimer()` at time `now`: record the start and register the tick. */
  function StartTimer(b: BurstState, now: int): (r: BurstState)
    ensures r.timerActive && r.startTime == Some(now)
    ensures b.modalOpen ==> PhaseOf(r) == Running
    ensures !r.controls.start && r.controls.stop && r.controls.done == b.controls.done
    ensures r.current == b.current && r.display == b.display
  {
    b.(startTime := Some(now), timerActive := true, controls := b.controls.(start := false, stop := true))
  }

  /** `stopTimer()`: cancel the tick and show only the done control. */
  function StopTimer(b: BurstState): (r: BurstState)
    ensures !r.timerActive
    ensures r.controls == Controls(false, false, true)
    ensures b.modalOpen ==> PhaseOf(r) == Finished
    ensures r.current == b.current && r.startTime == b.startTime && r.display == b.display
  {
    b.(timerActive := false, controls := Controls(false, false, true))
  }

  /** Whole seconds elapsed since `start`, as `Math.floor((now - start) / 1000)`; a null
      start reads as 0, as JavaScript's subtraction coerces it. */
  function ElapsedSeconds(start: Option<int>, now: int): (e: int)
    ensures 1000 * e <= now - start.GetOr(0) < 1000 * e + 1000
  {
    (now - start.GetOr(0)) / 1000
  }

  /** The seconds left on the countdown at time `now`. */
  function Remaining(b: BurstState, now: int): (r: int)
    ensures 1000 * (BurstDuration - r) <= now - b.startTime.GetOr(0) < 1000 * (BurstDuration - r) + 1000
    ensures now >= b.startTime.GetOr(0) ==> r <= BurstDuration
    ensures r > 0 <==> now - b.startTime.GetOr(0) < 1000 * BurstDuration
  {
    BurstDuration - ElapsedSeconds(b.startTime, now)
  }

  /** One run of the periodic callback at time `now` (no callback runs while no timer is registered). */
  function Tick(b: BurstState, now: int): (r: BurstState)
    ensures !b.timerActive ==> r == b
    ensures b.timerActive && Remaining(b, now) <= 0 ==>
              !r.timerActive && r.controls == Controls(false, false, true)
              && r.display == "0:00" && r.display == ClockText(0)
    ensures b.timerActive && Remaining(b, now) > 0 ==>
              r.timerActive && r.controls == b.controls && r.display == ClockText(Remaining(b, now))
    ensures r.current == b.current && r.startTime == b.startTime && r.modalOpen == b.modalOpen
  {
    if !b.timerActive then b
    else
      var remaining := Remaining(b, now);
      if remaining <= 0 then
        assert ClockText(0) == "0:00" by {
          assert Text.NatToString(0) == "0";
          assert Text.Pad2(0) == "00";
        }
        StopTimer(b).(display := "0:00")
      else
        b.(display := ClockText(remaining))
  }

  /** `closeBurstModal()`: stop a running timer, hide the modal and forget the item;
      the recorded start time is deliberately left as it was. */
  function CloseBurstModal(b: BurstState): (r: BurstState)
    ensures PhaseOf(r) == Closed && !r.timerActive && r.current.None?
    ensures r.startTime == b.startTime
    ensures !b.timerActive ==> r.controls == b.controls
  {
    var stopped := if b.timerActive then StopTimer(b) else b;
    stopped.(modalOpen := false, current := None)
  }

  /** `Math.round(a / b)` for a positive divisor: the nearest integer, halves rounding up. */
  function RoundDiv(a: int, b: int): (r: int)
    requires b > 0
    ensures b * r - b <= 2 * a - b * r < b * r + b
  {
    (2 * a + b) / (2 * b)
  }

  /** The minutes `completeBurst` records: the fallback when the timer was never started
      (a null or zero start), otherwise the elapsed minutes rounded, but at least one. */
  function BurstMinutes(start: Option<int>, now: int): (m: int)
    ensures m >= 1
    ensures (start.None? || start.value == 0) ==> m == FallbackMinutes
    ensures start.Some? && start.value != 0 ==>
              var e := ElapsedSeconds(start, now);
              (e < 30 ==> m == 1) && (e >= 30 ==> 60 * m - 30 <= e < 60 * m + 30)
  {
    if start.None? || start.value == 0 then FallbackMinutes
    else
      var rounded := RoundDiv(ElapsedSeconds(start, now), 60);
      if rounded < 1 then 1 else rounded
  }

  /** The values a burst log carries: the tempo typed on a riff, when any. */
  function RuntimeValues(item: Item, runtimeBpm: string): (r: map<string, Value>)
    ensures r.Keys <= {"bpm"}
    ensures "bpm" in r <==> item.kind == "riff" && runtimeBpm != ""
    ensures "bpm" in r ==> r["bpm"] == ParseNumber(runtimeBpm)
  {
    if item.kind == "riff" && runtimeBpm != "" then
      map["bpm" := ParseNumber(runtimeBpm)]
    else map[]
  }

  /** The whole application state the burst flow touches. */
  datatype App = App(store: Store, burst: BurstState, lastItemId: Option<string>)

  /** The log `completeBurst` records for the current item. */
  function BurstLog(b: BurstState, item: Item, now: int, freshId: string, runtimeBpm: string): (l: Log)
    ensures l.id == freshId && l.dateTime == now && l.itemId == item.id && l.mode == "burst"
    ensures l.minutes >= 1 && l.notesAwarded >= 1
  {
    Log(freshId, now, item.id, "burst", BurstMinutes(b.startTime, now),
        RuntimeValues(item, runtimeBpm), Kinds.BurstReward(item.kind))
  }

  /**
   * `completeBurst()` at time `now`: without a current item nothing happens;
   * otherwise the burst log is appended, the item becomes the last practised one
   * and the modal closes.
   */
  function CompleteBurst(app: App, now: int, freshId: string, runtimeBpm: string): (r: App)
    ensures app.burst.current.None? ==> r == app
    ensures app.burst.current.Some? ==>
              var item := app.burst.current.value;
              && |StoredLogs(r.store)| == |StoredLogs(app.store)| + 1
              && StoredLogs(r.store)[|StoredLogs(app.store)|]
                   == Log(freshId, now, item.id, "burst", BurstMinutes(app.burst.startTime, now),
                          RuntimeValues(item, runtimeBpm), Kinds.BurstReward(item.kind))
              && multiset(StoredLogs(r.store)[..|StoredLogs(app.store)|]) == multiset(StoredLogs(app.store))
              && NewestFirst(StoredLogs(r.store)[..|StoredLogs(app.store)|])
              && (forall t :: AtTime(StoredLogs(r.store)[..|StoredLogs(app.store)|], t) == AtTime(StoredLogs(app.store), t))
              && r.store.items == app.store.items
              && r.lastItemId == Some(item.id)
              && PhaseOf(r.burst) == Closed && r.burst.current.None? && !r.burst.timerActive
              && r.burst.startTime == app.burst.startTime
  {
    match app.burst.current
    case None => app
    case Some(item) =>
      var log := BurstLog(app.burst, item, now, freshId, runtimeBpm);
      var stored := AddLog(app.store, log).0;
      App(stored, CloseBurstModal(app.burst), Some(item.id))
  }

  /** The notes a completed burst awards never fall below one, and equal the kind's
      reward when that is non-zero. */
  lemma BurstNotesAwarded(app: App, now: int, freshId: string, runtimeBpm: string)
    requires app.burst.current.Some?
    ensures var r := CompleteBurst(app, now, freshId, runtimeBpm);
            var l := StoredLogs(r.store)[|StoredLogs(app.store)|];
            && l.notesAwarded == (if app.burst.current.value.kind == "bassbuzz" then 2 else 1)
            && l.minutes >= 1
  {
    Kinds.BurstRewardByKind(app.burst.current.value.kind);
  }

  /** An exercise burst timed for 65 seconds records one minute and one note, and
      makes the exercise the last practised item. */
  lemma ExerciseBurstScenario(store: Store, item: Item, t0: int, freshId: string)
    requires item.kind == "exercise" && t0 != 0
    ensures var shown := OpenBurstModal(Initial, item);
            var running := StartTimer(shown, t0);
            var done := CompleteBurst(App(store, running, None), t0 + 65000, freshId, "");
            var l := StoredLogs(done.store)[|StoredLogs(store)|];
            && l.minutes == 1 && l.notesAwarded == 1 && l.itemId == item.id && l.mode == "burst"
            && done.lastItemId == Some(item.id)
  {
    Kinds.BurstRewardByKind(item.kind);
  }

  /** A burst that is opened and completed without starting its timer reuses the start
      time of an earlier burst: an hour later it records sixty minutes, not five. */
  lemma StaleStartTime(store: Store, first: Item, second: Item, t0: int, freshId: string, freshId2: string)
    requires t0 != 0
    ensures var b1 := StartTimer(OpenBurstModal(Initial, first), t0);
            var a1 := CompleteBurst(App(store, b1, None), t0 + 120000, freshId, "");
            var a2 := a1.(burst := OpenBurstModal(a1.burst, second));
            var a3 := CompleteBurst(a2, t0 + 3600000, freshId2, "");
            StoredLogs(a3.store)[|StoredLogs(a2.store)|].minutes == 60
  {
    var b1 := StartTimer(OpenBurstModal(Initial, first), t0);
    var a1 := CompleteBurst(App(store, b1, None), t0 + 120000, freshId, "");
    var a2 := a1.(burst := OpenBurstModal(a1.burst, second));
    CompletedMinutes(a2, t0 + 3600000, freshId2);
    HourLater(t0);
  }

  /** A burst started at `t0 != 0` and completed an hour later records sixty minutes. */
  lemma HourLater(t0: int)
    requires t0 != 0
    ensures BurstMinutes(Some(t0), t0 + 3600000) == 60
  {
    assert ElapsedSeconds(Some(t0), t0 + 3600000) == 3600;
  }

  /** The log a completed burst appends carries the minutes measured from the recorded start. */
  lemma CompletedMinutes(app: App, now: int, freshId: string)
    requires app.burst.current.Some?
    ensures var r := CompleteBurst(app, now, freshId, "");
            |StoredLogs(app.store)| < |StoredLogs(r.store)|
            && StoredLogs(r.store)[|StoredLogs(app.store)|].minutes == BurstMinutes(app.burst.startTime, now)
  {
  }
}

=== FILE: itemform.dfy ===
/** The item form's save action (`saveItem`): validation, field defaults and the upsert. */
module ItemForm {
  import opened Wrappers
  import opened Records
  import opened Kinds
  import opened Store
  import Text

  /**
   * What the form holds when it is submitted: the raw title, the selected kind
   * (empty when none), the checkboxes, and the raw value of every rendered
   * `item-field-<name>` input, keyed by field name.
   */
  datatype Form = Form(
    title: string,
    kind: string,
    pinned: bool,
    allowBurst: bool,
    completed: bool,
    inputs: map<string, string>)

  datatype FormError = TitleAndKindRequired

  /** A field's declared default when it is truthy, else `fallback` (`fieldDef.default || fallback`). */
  function DefaultOr(def: FieldDef, fallback: Value): Value {
    if def.default.Some? && Truthy(def.default.value) then def.default.value else fallback
  }

  /** The value `saveItem` stores for one field, given its raw input. */
  function FieldValue(def: FieldDef, input: string): (r: Value)
    ensures def.fieldType == NumberField && (def.default.None? || def.default.value.Num?) ==> !r.Str?
    ensures def.fieldType != NumberField && (def.default.None? || def.default.value.Str?) ==> r.Str?
    ensures input == "" && def.default.Some? && Truthy(def.default.value) ==> r == def.default.value
    ensures input == "" && Truthy(r) ==> def.default == Some(r)
    ensures input == "" ==> r != NotANumber
    ensures def.fieldType != NumberField && input != "" ==> r == Str(input)
    ensures def.fieldType == NumberField && input != "" ==> r == ParseNumber(input)
  {
    if def.fieldType == NumberField then
      if input != "" then ParseNumber(input) else DefaultOr(def, Num(0))
    else
      if input != "" then Str(input) else DefaultOr(def, Str(""))
  }

  /** The `values` object collected for `kind`: one entry per schema field whose input is present. */
  function CollectValues(kind: string, inputs: map<string, string>): (r: map<string, Value>)
    ensures Definition(kind).None? ==> r == map[]
    ensures Definition(kind).Some? ==> r.Keys == Definition(kind).value.fields.Keys * inputs.Keys
    ensures forall name :: name in r ==> r[name] == FieldValue(Definition(kind).value.fields[name], inputs[name])
  {
    match Definition(kind)
    case None => map[]
    case Some(def) =>
      map name | name in def.fields.Keys * inputs.Keys :: FieldValue(def.fields[name], inputs[name])
  }

  /** The id a saved item gets: the edited item's id, else a fresh one. */
  function SavedId(editingId: Option<string>, freshId: string): string {
    if Given(editingId) then editingId.value else freshId
  }

  /**
   * `saveItem()`: refuse a blank title or an unselected kind; otherwise build the
   * item from the form and upsert it, returning the new store and the item.
   */
  function SaveItem(s: Store, form: Form, editingId: Option<string>, freshId: string)
    : (r: Result<(Store, Item), FormError>)
    ensures r.Err? <==> Text.Trim(form.title) == "" || form.kind == ""
    ensures r.Ok? ==>
              var (stored, item) := r.value;
              && item.title == Text.Trim(form.title) && item.title != ""
              && item.kind == form.kind
              && item.pinned == form.pinned && item.allowBurst == form.allowBurst
              && item.id == SavedId(editingId, freshId)
              && (item.completed.Some? <==> form.kind == "bassbuzz")
              && (item.completed.Some? ==> item.completed.value == form.completed)
              && item.values == CollectValues(form.kind, form.inputs)
              && stored.logs == s.logs
              && FindItem(ListItems(stored), item.id) == Some(item)
              && (forall k :: FirstWithId(ListItems(s), item.id, k) ==> ListItems(stored) == ListItems(s)[k := item])
              && ((forall x :: x in ListItems(s) ==> x.id != item.id) ==> ListItems(stored) == ListItems(s) + [item])
  {
    var title := Text.Trim(form.title);
    if title == "" || form.kind == "" then Err(TitleAndKindRequired)
    else
      var item := Item(SavedId(editingId, freshId), title, form.kind,
                       CollectValues(form.kind, form.inputs), form.pinned, form.allowBurst,
                       if form.kind == "bassbuzz" then Some(form.completed) else None);
      UpsertThenFind(s, item);
      Ok((UpsertItem(s, item).0, item))
  }

  /** A typed number is stored as that number. */
  lemma TypedNumberStored(def: FieldDef, n: int)
    requires def.fieldType == NumberField
    ensures FieldValue(def, Text.IntToString(n)) == Num(n)
  {
    Text.ParseIntRoundTrip(n, "");
    assert Text.IntToString(n) + "" == Text.IntToString(n);
  }

  /** Empty inputs take the table's defaults: a stamina drill gets 60 s at 120 BPM, a riff
      a 100 BPM target, and a BassBuzz lesson (no default) module and lesson 0. */
  lemma EmptyInputsTakeDefaults()
    ensures CollectValues("stamina", map["duration" := "", "bpm" := "", "description" := ""])
         == map["duration" := Num(60), "bpm" := Num(120), "description" := Str("")]
    ensures CollectValues("riff", map["targetBpm" := "", "notes" := ""])
         == map["targetBpm" := Num(100), "notes" := Str("")]
    ensures CollectValues("bassbuzz", map["module" := "", "lesson" := "", "link" := ""])
         == map["module" := Num(0), "lesson" := Num(0), "link" := Str("")]
  {
    EmptyStaminaInputs();
    EmptyRiffInputs();
    EmptyBassBuzzInputs();
  }

  lemma EmptyStaminaInputs()
    ensures CollectValues("stamina", map["duration" := "", "bpm" := "", "description" := ""])
         == map["duration" := Num(60), "bpm" := Num(120), "description" := Str("")]
  {
    assert Definitions["stamina"].fields.Keys == {"duration", "bpm", "description"};
  }

  lemma EmptyRiffInputs()
    ensures CollectValues("riff", map["targetBpm" := "", "notes" := ""])
         == map["targetBpm" := Num(100), "notes" := Str("")]
  {
    assert Definitions["riff"].fields.Keys == {"targetBpm", "notes"};
  }

  lemma EmptyBassBuzzInputs()
    ensures CollectValues("bassbuzz", map["module" := "", "lesson" := "", "link" := ""])
         == map["module" := Num(0), "lesson" := Num(0), "link" := Str("")]
  {
    assert Definitions["bassbuzz"].fields.Keys == {"module", "lesson", "link"};
  }

  /** A default value taken for an empty number input lies within the field's bounds. */
  lemma DefaultsWithinBounds(kind: string, name: string)
    requires kind in Definitions && name in Definitions[kind].fields
    requires Definitions[kind].fields[name].fieldType == NumberField
    requires Definitions[kind].fields[name].default.Some?
    ensures var def := Definitions[kind].fields[name];
            var v := FieldValue(def, "");
            v.Num? && def.min.Some? && def.max.Some? && def.min.value <= v.n <= def.max.value
  {
    FieldsWellFormed();
  }
}

=== FILE: kinds.dfy ===
/** The static table of item kinds: label, field schema and default reward. */
module Kinds {
  import opened Wrappers
  import opened Records
  import Seqs

  datatype FieldType = NumberField | TextField | UrlField

  /** The schema of one field of an item's `values`. */
  datatype FieldDef = FieldDef(
    fieldType: FieldType,
    displayName: string,
    required: bool,
    default: Option<Value>,
    min: Option<int>,
    max: Option<int>)

  datatype KindDef = KindDef(displayName: string, fields: map<string, FieldDef>, defaultReward: int)

  function NumberDef(displayName: string, required: bool, default: Option<int>, min: int, max: int): FieldDef {
    FieldDef(NumberField, displayName, required,
             match default case Some(d) => Some(Num(d)) case None => None,
             Some(min), Some(max))
  }

  function TextDef(fieldType: FieldType, displayName: string, required: bool): FieldDef {
    FieldDef(fieldType, displayName, required, Some(Str("")), None, None)
  }

  const Definitions: map<string, KindDef> := map[
    "riff" := KindDef("Riff", map[
      "targetBpm" := NumberDef("Target BPM", false, Some(100), 40, 300),
      "notes" := TextDef(TextField, "Tab/Notes", false)], 1),
    "bassbuzz" := KindDef("BassBuzz", map[
      "module" := NumberDef("Module", true, None, 1, 20),
      "lesson" := NumberDef("Lesson", true, None, 1, 50),
      "link" := TextDef(UrlField, "Link", false)], 2),
    "exercise" := KindDef("Exercise", map[
      "link" := TextDef(UrlField, "Link", false),
      "focus" := TextDef(TextField, "Focus", false)], 1),
    "warmup" := KindDef("Warm-up", map[
      "description" := TextDef(TextField, "Description", false)], 1),
    "theory" := KindDef("Theory", map[
      "topic" := TextDef(TextField, "Topic", false),
      "link" := TextDef(UrlField, "Link", false)], 1),
    "resource" := KindDef("Resource", map[
      "link" := TextDef(UrlField, "Link", true),
      "description" := TextDef(TextField, "Description", false)], 0),
    "stamina" := KindDef("Stamina", map[
      "duration" := NumberDef("Duration (seconds)", true, Some(60), 30, 600),
      "bpm" := NumberDef("BPM", true, Some(120), 40, 300),
      "description" := TextDef(TextField, "Description", false)], 1)
  ]

  /** `KIND_DEFINITIONS[kind]`, undefined for an unregistered kind. */
  function Definition(kind: string): Option<KindDef> {
    if kind in Definitions then Some(Definitions[kind]) else None
  }

  /** `KIND_DEFINITIONS[kind]?.defaultReward || 1`: the notes a completed burst awards. */
  function BurstReward(kind: string): (r: int)
    ensures r >= 1
  {
    match Definition(kind)
    case Some(def) => if def.defaultReward != 0 then def.defaultReward else 1
    case None => 1
  }

  /** The registered kind names, in declaration order. */
  const KindNames: seq<string> := ["riff", "bassbuzz", "exercise", "warmup", "theory", "resource", "stamina"]

  /** The table registers exactly seven distinct kinds. */
  lemma SevenKinds()
    ensures Definitions.Keys == set k | k in KindNames
    ensures |KindNames| == 7 && Seqs.Distinct(KindNames)
  {
  }

  /** The default reward declared for each kind. */
  lemma DefaultRewards()
    ensures Definitions["riff"].defaultReward == 1
    ensures Definitions["bassbuzz"].defaultReward == 2
    ensures Definitions["exercise"].defaultReward == 1
    ensures Definitions["warmup"].defaultReward == 1
    ensures Definitions["theory"].defaultReward == 1
    ensures Definitions["resource"].defaultReward == 0
    ensures Definitions["stamina"].defaultReward == 1
  {
  }

  /** Every burst awards one note, except on a BassBuzz lesson, which awards two;
      a resource (reward 0) and an unregistered kind fall back to one. */
  lemma BurstRewardByKind(kind: string)
    ensures BurstReward(kind) == if kind == "bassbuzz" then 2 else 1
  {
  }

  /** A numeric field's declared bounds and default agree with one another. */
  predicate WellFormedField(f: FieldDef) {
    && (f.min.Some? && f.max.Some? ==> f.min.value <= f.max.value)
    && (f.default.Some? && f.default.value.Num? ==>
          (f.min.Some? ==> f.min.value <= f.default.value.n)
          && (f.max.Some? ==> f.default.value.n <= f.max.value))
  }

  /** Every field of every kind has min <= max and a numeric default within its bounds. */
  lemma FieldsWellFormed()
    ensures forall kind, name :: kind in Definitions && name in Definitions[kind].fields
              ==> WellFormedField(Definitions[kind].fields[name])
  {
  }

  /** The numeric defaults and their ranges. */
  lemma NumericDefaults()
    ensures Definitions["riff"].fields["targetBpm"] == FieldDef(NumberField, "Target BPM", false, Some(Num(100)), Some(40), Some(300))
    ensures Definitions["stamina"].fields["duration"].default == Some(Num(60))
    ensures Definitions["stamina"].fields["duration"].min == Some(30)
    ensures Definitions["stamina"].fields["duration"].max == Some(600)
    ensures Definitions["stamina"].fields["bpm"].default == Some(Num(120))
    ensures Definitions["stamina"].fields["bpm"].min == Some(40)
    ensures Definitions["stamina"].fields["bpm"].max == Some(300)
  {
  }

  /** BassBuzz module and lesson are required numbers without a default; a resource needs a link. */
  lemma RequiredFields()
    ensures var f := Definitions["bassbuzz"].fields["module"];
              f.fieldType == NumberField && f.required && f.default.None?
    ensures var f := Definitions["bassbuzz"].fields["lesson"];
              f.fieldType == NumberField && f.required && f.default.None?
    ensures var f := Definitions["resource"].fields["link"];
              f.fieldType == UrlField && f.required
  {
  }
}

=== FILE: notes.dfy ===
/** The reward counter in the header (`updateNotesCount`). */
module Notes {
  import opened Seqs
  import opened Records
  import opened Store

  /** `logs.reduce((sum, log) => sum + log.notesAwarded, 0)`. */
  function TotalNotes(logs: seq<Log>): int {
    Sum(logs, (l: Log) => l.notesAwarded)
  }

  /** The counter shown: the total over what `listLogs()` returns, which sorting
      leaves equal to the total over the stored logs. */
  function NotesCount(s: Store): (n: int)
    ensures n == TotalNotes(StoredLogs(s))
  {
    ListAllLogs(s);
    SumPermutation(ListLogs(s, NoFilters), StoredLogs(s), (l: Log) => l.notesAwarded);
    TotalNotes(ListLogs(s, NoFilters))
  }

  /** Adding a log raises the counter by exactly the notes it awards. */
  lemma AddLogAddsNotes(s: Store, log: Log)
    ensures NotesCount(AddLog(s, log).0) == NotesCount(s) + log.notesAwarded
  {
    var after := AddLog(s, log).0;
    var n := |StoredLogs(s)|;
    assert StoredLogs(after) == StoredLogs(after)[..n] + [log];
    SumConcat(StoredLogs(after)[..n], [log], (l: Log) => l.notesAwarded);
    SumPermutation(StoredLogs(after)[..n], StoredLogs(s), (l: Log) => l.notesAwarded);
  }
}

=== FILE: preview.dfy ===
/** The one-line preview shown under an item's title (`_getItemPreview`). */
module Preview {
  import opened Wrappers
  import opened Records
  import Text

  const MaxLength := 40

  /** The kinds `_getItemPreview` has a case for. */
  const PreviewKinds := {"riff", "stamina", "bassbuzz", "resource", "exercise"}

  /** `text.substring(0, 40)`, with `...` appended when that dropped something. */
  function Truncate(text: string): (r: string)
    ensures |text| <= MaxLength ==> r == text
    ensures |text| > MaxLength ==> |r| == MaxLength + 3
    ensures |text| > MaxLength ==> r[..MaxLength] == text[..MaxLength] && r[MaxLength..] == "..."
  {
    var cut := if |text| < MaxLength then |text| else MaxLength;
    var head := text[..cut];
    if |head| < |text| then head + "..." else head
  }

  /** The free text held in `values[name]`, when it is a non-empty string. */
  function TextField(values: map<string, Value>, name: string): Option<string> {
    if name in values && values[name].Str? && values[name].s != "" then Some(values[name].s) else None
  }

  /** `values?.name || fallback` rendered by a template literal. */
  function RenderOr(values: map<string, Value>, name: string, fallback: string): string {
    if TruthyField(values, name) then Render(values[name]) else fallback
  }

  /** The truncated free text of a text field, or nothing. */
  function TextPreview(values: map<string, Value>, name: string): Option<string> {
    match TextField(values, name)
    case Some(t) => Some(Truncate(t))
    case None => None
  }

  /** `_getItemPreview(item)`; `None` stands for `null`. */
  function ItemPreview(item: Item): (r: Option<string>)
    ensures r.Some? ==> item.kind in PreviewKinds && |r.value| > 0
    ensures item.kind == "stamina" || item.kind == "bassbuzz" ==> r.Some?
    ensures (item.kind == "resource" || item.kind == "exercise") && r.Some? ==>
              TextField(item.values, PreviewedText(item.kind).value).Some? && |r.value| <= MaxLength + 3
  {
    var v := item.values;
    if item.kind == "riff" then
      if TextField(v, "notes").Some? then TextPreview(v, "notes")
      else if TruthyField(v, "targetBpm") then Some("Target: " + Render(v["targetBpm"]) + " BPM")
      else None
    else if item.kind == "stamina" then
      Some(RenderOr(v, "duration", "0") + "s @ " + RenderOr(v, "bpm", "0") + " BPM")
    else if item.kind == "bassbuzz" then
      Some("M" + RenderOr(v, "module", "?") + " L" + RenderOr(v, "lesson", "?"))
    else if item.kind == "resource" then TextPreview(v, "description")
    else if item.kind == "exercise" then TextPreview(v, "focus")
    else None
  }

  /** The text field whose contents a kind previews. */
  function PreviewedText(kind: string): Option<string> {
    if kind == "riff" then Some("notes")
    else if kind == "resource" then Some("description")
    else if kind == "exercise" then Some("focus")
    else None
  }

  /** A riff's notes, a resource's description or an exercise's focus previews as its
      first 40 characters, followed by `...` exactly when the text is longer. */
  lemma TextPreviewTruncates(item: Item, t: string)
    requires PreviewedText(item.kind).Some?
    requires TextField(item.values, PreviewedText(item.kind).value) == Some(t)
    ensures ItemPreview(item).Some?
    ensures var p := ItemPreview(item).value;
              var n := if |t| < MaxLength then |t| else MaxLength;
              && p[..n] == t[..n]
              && (|t| > MaxLength <==> |p| == n + 3 && p[n..] == "...")
              && (|t| <= MaxLength ==> p == t)
  {
  }

  /** Without its text, a resource or an exercise has no preview, nor has a riff
      lacking both notes and a target tempo. */
  lemma MissingTextNoPreview(item: Item)
    requires PreviewedText(item.kind).Some?
    requires TextField(item.values, PreviewedText(item.kind).value).None?
    requires item.kind == "riff" ==> !TruthyField(item.values, "targetBpm")
    ensures ItemPreview(item).None?
  {
  }

  /** A riff without notes falls back to its target tempo, `Target: <bpm> BPM`. */
  lemma RiffTargetPreview(item: Item, bpm: int)
    requires item.kind == "riff" && TextField(item.values, "notes").None?
    requires bpm != 0 && "targetBpm" in item.values && item.values["targetBpm"] == Num(bpm)
    ensures ItemPreview(item) == Some("Target: " + Text.IntToString(bpm) + " BPM")
  {
  }

  /** Warm-ups, theory items and unregistered kinds never have a preview. */
  lemma NoPreviewKinds(item: Item)
    requires item.kind !in {"riff", "stamina", "bassbuzz", "resource", "exercise"}
    ensures ItemPreview(item).None?
  {
  }

  /** A stamina drill previews as `<duration>s @ <bpm> BPM`, a missing value showing 0. */
  lemma StaminaPreview(item: Item, duration: int, bpm: int)
    requires item.kind == "stamina"
    requires if "duration" in item.values then item.values["duration"] == Num(duration) else duration == 0
    requires if "bpm" in item.values then item.values["bpm"] == Num(bpm) else bpm == 0
    ensures ItemPreview(item) == Some(Text.IntToString(duration) + "s @ " + Text.IntToString(bpm) + " BPM")
  {
  }

  /** A BassBuzz lesson previews as `M<module> L<lesson>`, a missing value showing `?`. */
  lemma BassBuzzPreview(item: Item, moduleNo: Option<int>, lessonNo: Option<int>)
    requires item.kind == "bassbuzz"
    requires match moduleNo
               case Some(m) => m != 0 && "module" in item.values && item.values["module"] == Num(m)
               case None => "module" !in item.values
    requires match lessonNo
               case Some(l) => l != 0 && "lesson" in item.values && item.values["lesson"] == Num(l)
               case None => "lesson" !in item.values
    ensures ItemPreview(item) == Some("M" + (match moduleNo case Some(m) => Text.IntToString(m) case None => "?")
                                    + " L" + (match lessonNo case Some(l) => Text.IntToString(l) case None => "?"))
  {
  }
}

=== FILE: recent.dfy ===
/** The home screen's "recent items": the items of the latest distinct logged ids. */
module Recent {
  import opened Wrappers
  import opened Seqs
  import opened Records
  import opened Store

  /** The position of the first occurrence of `x` in `s`. */
  function FirstIndex(s: seq<string>, x: string): (r: nat)
    requires x in s
    ensures r < |s| && s[r] == x
    ensures forall j :: 0 <= j < r ==> s[j] != x
  {
    if s[0] == x then 0 else 1 + FirstIndex(s[1..], x)
  }

  lemma FirstIndexUnique(s: seq<string>, x: string, k: nat)
    requires k < |s| && s[k] == x
    requires forall j :: 0 <= j < k ==> s[j] != x
    ensures FirstIndex(s, x) == k
  {
    var r := FirstIndex(s, x);
    assert !(r < k) && !(k < r);
  }

  /** The distinct values of `s`, each once, in order of first occurrence. */
  function FirstOccurrences(s: seq<string>): (r: seq<string>)
    ensures Distinct(r)
    ensures forall x :: x in r <==> x in s
    ensures forall i, j :: 0 <= i < j < |r| ==> FirstIndex(s, r[i]) < FirstIndex(s, r[j])
  {
    if |s| == 0 then []
    else
      var init := s[..|s| - 1];
      var last := s[|s| - 1];
      var d := FirstOccurrences(init);
      assert s == init + [last];
      OccurrencesSnoc(init, last, d);
      if last in d then d else d + [last]
  }

  /** The step of `FirstOccurrences`: from the first occurrences of `init` to those of `init + [last]`. */
  lemma OccurrencesSnoc(init: seq<string>, last: string, d: seq<string>)
    requires Distinct(d)
    requires forall x :: x in d <==> x in init
    requires forall i, j :: 0 <= i < j < |d| ==> FirstIndex(init, d[i]) < FirstIndex(init, d[j])
    ensures var s := init + [last];
            var r := if last in d then d else d + [last];
            && Distinct(r)
            && (forall x :: x in r <==> x in s)
            && (forall i, j :: 0 <= i < j < |r| ==> FirstIndex(s, r[i]) < FirstIndex(s, r[j]))
  {
    var s := init + [last];
    FirstIndexExtends(init, last);
    if last !in d {
      assert forall x :: x in d ==> FirstIndex(s, x) < |init|;
      FirstIndexUnique(s, last, |init|);
    }
  }

  /** Extending a sequence does not move the first occurrence of what it already held. */
  lemma FirstIndexExtends(init: seq<string>, last: string)
    ensures forall x :: x in init ==> FirstIndex(init + [last], x) == FirstIndex(init, x)
  {
    forall x | x in init
      ensures FirstIndex(init + [last], x) == FirstIndex(init, x)
    {
      FirstIndexUnique(init + [last], x, FirstIndex(init, x));
    }
  }

  /** The first `n` elements of `s` (all of them when `n` exceeds its length, none when `n <= 0`). */
  function Take(s: seq<string>, n: int): (r: seq<string>)
    ensures |r| <= |s| && r == s[..|r|]
    ensures |r| == if n <= 0 then 0 else if n < |s| then n else |s|
  {
    if n <= 0 then [] else if n >= |s| then s else s[..n]
  }

  function LogItemIds(logs: seq<Log>): seq<string> {
    Map(logs, (l: Log) => l.itemId)
  }

  /**
   * The loop of `_getRecentItems`: walk the logs, keeping an id the first time it
   * is seen while fewer than `limit` ids are kept.
   */
  method RecentItemIds(logs: seq<Log>, limit: int) returns (ids: seq<string>)
    ensures ids == Take(FirstOccurrences(LogItemIds(logs)), limit)
  {
    ids := [];
    var seen: set<string> := {};
    var all := LogItemIds(logs);
    for k := 0 to |logs|
      invariant ids == Take(FirstOccurrences(all[..k]), limit)
      invariant forall x :: x in seen <==> x in ids
    {
      var itemId := logs[k].itemId;
      assert all[k] == itemId;
      RecentStep(all, k, ids, limit);
      if itemId !in seen && |ids| < limit {
        seen := seen + {itemId};
        ids := ids + [itemId];
      }
    }
    assert all[..|logs|] == all;
  }

  /** One iteration of the loop: an unseen id is kept while fewer than `limit` are kept. */
  lemma RecentStep(all: seq<string>, k: nat, ids: seq<string>, limit: int)
    requires k < |all|
    requires ids == Take(FirstOccurrences(all[..k]), limit)
    ensures var next := Take(FirstOccurrences(all[..k + 1]), limit);
            if all[k] !in ids && |ids| < limit then next == ids + [all[k]] else next == ids
  {
    FirstOccurrencesSnoc(all, k);
    var d := FirstOccurrences(all[..k]);
    if all[k] !in ids && |ids| < limit {
      assert ids == d;
    } else if all[k] !in d {
      TakeSnoc(d, all[k], limit);
    }
  }

  /** Walking one more element extends the first occurrences by it, unless it was already seen. */
  lemma FirstOccurrencesSnoc(s: seq<string>, k: nat)
    requires k < |s|
    ensures var d := FirstOccurrences(s[..k]);
            FirstOccurrences(s[..k + 1]) == if s[k] in d then d else d + [s[k]]
  {
    assert s[..k + 1][..k] == s[..k];
  }

  /** Once `n` elements are taken, appending more does not change what is taken. */
  lemma TakeSnoc(d: seq<string>, x: string, n: int)
    requires n <= |d|
    ensures Take(d + [x], n) == Take(d, n)
  {
    if n > 0 {
      assert (d + [x])[..n] == d[..n];
    }
  }

  /** `ids.map(id => items.find(...)).filter(Boolean)`: resolve ids, dropping the unknown ones. */
  function Resolve(items: seq<Item>, ids: seq<string>): (r: seq<Item>)
    ensures Map(r, (x: Item) => x.id) == Filter(ids, (id: string) => FindItem(items, id).Some?)
    ensures forall k :: 0 <= k < |r| ==> FindItem(items, r[k].id) == Some(r[k])
  {
    if |ids| == 0 then []
    else
      var rest := Resolve(items, ids[1..]);
      match FindItem(items, ids[0])
      case Some(x) =>
        assert Map([x] + rest, (y: Item) => y.id) == [x.id] + Map(rest, (y: Item) => y.id);
        [x] + rest
      case None => rest
  }

  /** A filter of a sequence without duplicates has none either. */
  lemma {:induction false} FilterDistinct(s: seq<string>, p: string -> bool)
    requires Distinct(s)
    ensures Distinct(Filter(s, p))
  {
    if |s| > 0 {
      FilterDistinct(s[1..], p);
      assert s[0] !in s[1..];
    }
  }

  /**
   * `_getRecentItems(items, limit)`: the items of the first `limit` distinct item ids
   * of the newest-first logs, in that order; ids without an item are dropped after
   * the limit is applied.
   */
  method GetRecentItems(s: Store, items: seq<Item>, limit: int) returns (r: seq<Item>)
    ensures |r| <= if limit <= 0 then 0 else limit
    ensures Distinct(Map(r, (x: Item) => x.id))
    ensures Map(r, (x: Item) => x.id)
         == Filter(Take(FirstOccurrences(LogItemIds(ListLogs(s, NoFilters))), limit),
                   (id: string) => FindItem(items, id).Some?)
    ensures forall k :: 0 <= k < |r| ==> r[k] in items && FindItem(items, r[k].id) == Some(r[k])
  {
    var logs := ListLogs(s, NoFilters);
    var ids := RecentItemIds(logs, limit);
    r := Resolve(items, ids);
    FilterDistinct(ids, (id: string) => FindItem(items, id).Some?);
    assert |Map(r, (x: Item) => x.id)| == |r|;
  }
}

=== FILE: records.dfy ===
/** The two persisted record types, practice items and practice logs. */
module Records {
  import opened Wrappers
  import Text

  /** A value held in an item's or a log's `values` object. */
  datatype Value = Num(n: int) | Str(s: string) | NotANumber

  /** JavaScript truthiness of a value. */
  predicate Truthy(v: Value) {
    match v
    case Num(n) => n != 0
    case Str(s) => s != ""
    case NotANumber => false
  }

  /** Truthiness of `values?.name`: an absent field is falsy. */
  predicate TruthyField(values: map<string, Value>, name: string) {
    name in values && Truthy(values[name])
  }

  /** `parseInt(text)` as a stored value: a number, or NaN when `text` has no leading digits. */
  function ParseNumber(text: string): Value {
    match Text.ParseInt(text)
    case Some(n) => Num(n)
    case None => NotANumber
  }

  /** How a template literal renders a value. */
  function Render(v: Value): string {
    match v
    case Num(n) => Text.IntToString(n)
    case Str(s) => s
    case NotANumber => "NaN"
  }

  /** A trackable practice unit; `completed` is only ever set for BassBuzz lessons. */
  datatype Item = Item(
    id: string,
    title: string,
    kind: string,
    values: map<string, Value>,
    pinned: bool,
    allowBurst: bool,
    completed: Option<bool>)

  /** JavaScript truthiness of `item.completed` (absent reads as false). */
  predicate IsCompleted(item: Item) {
    item.completed == Some(true)
  }

  /** One recorded practice session; `dateTime` is a timestamp in milliseconds. */
  datatype Log = Log(
    id: string,
    dateTime: int,
    itemId: string,
    mode: string,
    minutes: int,
    values: map<string, Value>,
    notesAwarded: int)
}

=== FILE: seqs.dfy ===
/** Order-preserving filtering of sequences and the facts the store relies on. */
module Seqs {

  /** `Array.prototype.filter`: the elements of `s` satisfying `p`, in their order in `s`. */
  function Filter<T(!new)>(s: seq<T>, p: T -> bool): (r: seq<T>)
    ensures |r| <= |s|
    ensures forall x :: x in r <==> x in s && p(x)
    ensures forall x :: multiset(r)[x] == if p(x) then multiset(s)[x] else 0
  {
    if |s| == 0 then []
    else
      assert s == [s[0]] + s[1..];
      (if p(s[0]) then [s[0]] else []) + Filter(s[1..], p)
  }

  /** Filtering distributes over concatenation: relative order is kept. */
  lemma {:induction false} FilterConcat<T(!new)>(a: seq<T>, b: seq<T>, p: T -> bool)
    ensures Filter(a + b, p) == Filter(a, p) + Filter(b, p)
  {
    if |a| == 0 {
      assert a + b == b;
    } else {
      var h := if p(a[0]) then [a[0]] else [];
      assert (a + b)[0] == a[0];
      ConsTail(a, b);
      FilterConcat(a[1..], b, p);
      ConcatAssoc(h, Filter(a[1..], p), Filter(b, p));
    }
  }

  lemma ConsTail<T>(a: seq<T>, b: seq<T>)
    requires |a| > 0
    ensures (a + b)[1..] == a[1..] + b
  {
  }

  lemma ConcatAssoc<T>(x: seq<T>, y: seq<T>, z: seq<T>)
    ensures x + (y + z) == (x + y) + z
  {
  }

  /** A filter that every element passes returns its input. */
  lemma {:induction false} FilterAll<T(!new)>(s: seq<T>, p: T -> bool)
    requires forall x :: x in s ==> p(x)
    ensures Filter(s, p) == s
  {
    if |s| > 0 {
      assert s[0] in s;
      FilterAll(s[1..], p);
      assert [s[0]] + s[1..] == s;
    }
  }

  /** Two filters applied in turn are one filter by their conjunction `pq`. */
  lemma {:induction false} FilterFilter<T(!new)>(s: seq<T>, p: T -> bool, q: T -> bool, pq: T -> bool)
    requires forall x :: x in s ==> pq(x) == (p(x) && q(x))
    ensures Filter(Filter(s, p), q) == Filter(s, pq)
  {
    if |s| > 0 {
      assert s[0] in s;
      FilterFilter(s[1..], p, q, pq);
      var head := if p(s[0]) then [s[0]] else [];
      FilterConcat(head, Filter(s[1..], p), q);
      if p(s[0]) {
        assert head[1..] == [];
      }
    }
  }

  /** Filters with pointwise-equal predicates agree. */
  lemma {:induction false} FilterExt<T(!new)>(s: seq<T>, p: T -> bool, q: T -> bool)
    requires forall x :: x in s ==> p(x) == q(x)
    ensures Filter(s, p) == Filter(s, q)
  {
    if |s| > 0 {
      assert s[0] in s;
      FilterExt(s[1..], p, q);
    }
  }

  /** `a` is `b` with some elements dropped and the rest in their order. */
  predicate Subsequence<T(==)>(a: seq<T>, b: seq<T>)
    decreases |b|
  {
    if |a| == 0 then true
    else if |b| == 0 then false
    else if a[0] == b[0] then Subsequence(a[1..], b[1..])
    else Subsequence(a, b[1..])
  }

  /** A filter keeps the relative order of what it keeps. */
  lemma {:induction false} FilterSubsequence<T(!new)>(s: seq<T>, p: T -> bool)
    ensures Subsequence(Filter(s, p), s)
  {
    if |s| > 0 {
      FilterSubsequence(s[1..], p);
      var r := Filter(s, p);
      if p(s[0]) {
        assert r[0] == s[0] && r[1..] == Filter(s[1..], p);
      } else {
        assert r == Filter(s[1..], p);
        SubsequenceSkip(r, s);
      }
    }
  }

  /** Dropping the head of the longer sequence keeps a subsequence relation. */
  lemma {:induction false} SubsequenceSkip<T>(a: seq<T>, b: seq<T>)
    requires |b| > 0 && Subsequence(a, b[1..])
    ensures Subsequence(a, b)
    decreases |a| + |b|
  {
    if |a| > 0 && a[0] == b[0] {
      SubsequenceTail(a, b[1..]);
    }
  }

  /** Dropping the head of the shorter sequence keeps a subsequence relation. */
  lemma {:induction false} SubsequenceTail<T>(a: seq<T>, b: seq<T>)
    requires |a| > 0 && Subsequence(a, b)
    ensures Subsequence(a[1..], b)
    decreases |a| + |b|
  {
    if a[0] == b[0] {
      SubsequenceSkip(a[1..], b);
    } else {
      SubsequenceTail(a, b[1..]);
      SubsequenceSkip(a[1..], b);
    }
  }

  /** `Array.prototype.map` for a projection. */
  function Map<T, U>(s: seq<T>, f: T -> U): (r: seq<U>)
    ensures |r| == |s|
    ensures forall k :: 0 <= k < |s| ==> r[k] == f(s[k])
  {
    if |s| == 0 then [] else [f(s[0])] + Map(s[1..], f)
  }

  /** No element occurs twice. */
  predicate Distinct<T(==)>(s: seq<T>) {
    forall i, j :: 0 <= i < j < |s| ==> s[i] != s[j]
  }

  /** Integer sum of a projection, as `reduce((sum, x) => sum + f(x), 0)`. */
  function Sum<T>(s: seq<T>, f: T -> int): int {
    if |s| == 0 then 0 else f(s[0]) + Sum(s[1..], f)
  }

  /** The sum over a concatenation is the sum of the sums. */
  lemma {:induction false} SumConcat<T>(a: seq<T>, b: seq<T>, f: T -> int)
    ensures Sum(a + b, f) == Sum(a, f) + Sum(b, f)
  {
    if |a| == 0 {
      assert a + b == b;
    } else {
      assert (a + b)[1..] == a[1..] + b;
      SumConcat(a[1..], b, f);
    }
  }

  /** Summing removes one occurrence of an element wherever it sits. */
  lemma {:induction false} SumRemove<T>(s: seq<T>, k: nat, f: T -> int)
    requires k < |s|
    ensures Sum(s, f) == f(s[k]) + Sum(s[..k] + s[k + 1..], f)
  {
    assert s == s[..k] + [s[k]] + s[k + 1..];
    SumConcat(s[..k] + [s[k]], s[k + 1..], f);
    SumConcat(s[..k], [s[k]], f);
    SumConcat(s[..k], s[k + 1..], f);
  }

  /** Removing position `k` removes exactly one occurrence of `s[k]`. */
  lemma MultisetRemove<T>(s: seq<T>, k: nat)
    requires k < |s|
    ensures multiset(s[..k] + s[k + 1..]) == multiset(s) - multiset{s[k]}
  {
    assert s == s[..k] + [s[k]] + s[k + 1..];
    assert multiset(s) == multiset(s[..k]) + multiset{s[k]} + multiset(s[k + 1..]);
  }

  /** A sum does not depend on the order of the summands. */
  lemma {:induction false} SumPermutation<T>(a: seq<T>, b: seq<T>, f: T -> int)
    requires multiset(a) == multiset(b)
    ensures Sum(a, f) == Sum(b, f)
    decreases |a|
  {
    if |a| > 0 {
      var k := Occurrence(b, a[0]);
      SumRemove(b, k, f);
      MultisetRemove(b, k);
      MultisetRemove(a, 0);
      DropFirst(a);
      SumPermutation(a[1..], b[..k] + b[k + 1..], f);
    }
  }

  /** A position of `x` in `s`, for an `x` that `s` holds. */
  lemma Occurrence<T>(s: seq<T>, x: T) returns (k: nat)
    requires x in multiset(s)
    ensures k < |s| && s[k] == x
  {
    assert x in s;
    k :| 0 <= k < |s| && s[k] == x;
  }

  lemma DropFirst<T>(a: seq<T>)
    requires |a| > 0
    ensures a[..0] + a[1..] == a[1..]
  {
  }
}

=== FILE: sorting.dfy ===
/**
 * A stable sort, as `Array.prototype.sort` is required to be, modelled as an
 * insertion sort over a total preorder `le` ("may come before").
 */
module Sorting {
  import opened Seqs

  /** Any two elements are comparable. */
  ghost predicate Total<T(!new)>(le: (T, T) -> bool) {
    forall a, b :: le(a, b) || le(b, a)
  }

  ghost predicate Transitive<T(!new)>(le: (T, T) -> bool) {
    forall a, b, c :: le(a, b) && le(b, c) ==> le(a, c)
  }

  /** The relations a comparator-based sort can order by. */
  ghost predicate TotalPreorder<T(!new)>(le: (T, T) -> bool) {
    Total(le) && Transitive(le)
  }

  /** Every element may come before every later one. */
  predicate SortedBy<T>(s: seq<T>, le: (T, T) -> bool) {
    forall i, j :: 0 <= i < j < |s| ==> le(s[i], s[j])
  }

  /** Elements that `le` cannot tell apart. */
  predicate Tied<T>(le: (T, T) -> bool, a: T, b: T) {
    le(a, b) && le(b, a)
  }

  /** Places `x` before the first element it may precede (so ahead of its ties). */
  function Insert<T(!new)>(x: T, t: seq<T>, le: (T, T) -> bool): (r: seq<T>)
    ensures |r| == |t| + 1
    ensures multiset(r) == multiset(t) + multiset{x}
    ensures forall y :: y in r <==> y == x || y in t
  {
    if |t| == 0 || le(x, t[0]) then [x] + t
    else
      assert t == [t[0]] + t[1..];
      [t[0]] + Insert(x, t[1..], le)
  }

  /** The stable sort of `s` by `le`. */
  function SortBy<T(!new)>(s: seq<T>, le: (T, T) -> bool): (r: seq<T>)
    ensures |r| == |s|
    ensures multiset(r) == multiset(s)
    ensures forall y :: y in r <==> y in s
  {
    if |s| == 0 then []
    else
      assert s == [s[0]] + s[1..];
      Insert(s[0], SortBy(s[1..], le), le)
  }

  lemma {:induction false} InsertSorted<T(!new)>(x: T, t: seq<T>, le: (T, T) -> bool)
    requires TotalPreorder(le)
    requires SortedBy(t, le)
    ensures SortedBy(Insert(x, t, le), le)
  {
    if |t| == 0 || le(x, t[0]) {
      var r := [x] + t;
      forall i, j | 0 <= i < j < |r|
        ensures le(r[i], r[j])
      {
        if i == 0 {
          assert r[j] == t[j - 1];
          if j > 1 {
            assert le(t[0], t[j - 1]);
          }
        } else {
          assert r[i] == t[i - 1] && r[j] == t[j - 1];
        }
      }
    } else {
      assert le(t[0], x);
      InsertSorted(x, t[1..], le);
      var rest := Insert(x, t[1..], le);
      var r := [t[0]] + rest;
      forall i, j | 0 <= i < j < |r|
        ensures le(r[i], r[j])
      {
        if i == 0 {
          assert r[j] in rest;
          if r[j] != x {
            var k :| 0 <= k < |t[1..]| && t[1..][k] == r[j];
            assert le(t[0], t[k + 1]);
          }
        } else {
          assert r[i] == rest[i - 1] && r[j] == rest[j - 1];
        }
      }
    }
  }

  /** The result of `SortBy` is ordered by `le`. */
  lemma {:induction false} SortBySorted<T(!new)>(s: seq<T>, le: (T, T) -> bool)
    requires TotalPreorder(le)
    ensures SortedBy(SortBy(s, le), le)
  {
    if |s| > 0 {
      SortBySorted(s[1..], le);
      InsertSorted(s[0], SortBy(s[1..], le), le);
    }
  }

  /** Everything tied with `c` may precede everything else tied with `c`. */
  ghost predicate TiesInterchangeable<T(!new)>(le: (T, T) -> bool, c: T) {
    forall a, b :: Tied(le, a, c) && Tied(le, b, c) ==> le(a, b)
  }

  lemma TotalPreorderTies<T(!new)>(le: (T, T) -> bool, c: T)
    requires TotalPreorder(le)
    ensures TiesInterchangeable(le, c)
  {
  }

  /** The tied elements of a sequence with a head, spelled out. */
  lemma FilterCons<T(!new)>(h: T, t: seq<T>, P: T -> bool)
    ensures Filter([h] + t, P) == (if P(h) then [h] else []) + Filter(t, P)
  {
    assert ([h] + t)[0] == h;
    assert ([h] + t)[1..] == t;
  }

  /** Inserting `x` puts it ahead of everything tied with it. */
  lemma {:induction false} InsertStable<T(!new)>(x: T, t: seq<T>, le: (T, T) -> bool, c: T)
    requires TiesInterchangeable(le, c)
    ensures Filter(Insert(x, t, le), y => Tied(le, y, c))
         == (if Tied(le, x, c) then [x] else []) + Filter(t, y => Tied(le, y, c))
  {
    var P: T -> bool := y => Tied(le, y, c);
    var X := if P(x) then [x] else [];
    if |t| == 0 || le(x, t[0]) {
      FilterCons(x, t, P);
    } else {
      var rest := Insert(x, t[1..], le);
      var A := if P(t[0]) then [t[0]] else [];
      InsertStable(x, t[1..], le, c);
      FilterCons(t[0], rest, P);
      assert Filter(t, P) == A + Filter(t[1..], P);
      assert A == [] || X == [];
      SwapAroundEmpty(A, X, Filter(t[1..], P));
    }
  }

  lemma SwapAroundEmpty<T>(a: seq<T>, b: seq<T>, c: seq<T>)
    requires a == [] || b == []
    ensures a + (b + c) == b + (a + c)
  {
  }

  /** Stability: within each class of tied elements the input order is kept. */
  lemma {:induction false} SortByStable<T(!new)>(s: seq<T>, le: (T, T) -> bool, c: T)
    requires TotalPreorder(le)
    ensures Filter(SortBy(s, le), y => Tied(le, y, c)) == Filter(s, y => Tied(le, y, c))
  {
    if |s| > 0 {
      SortByStable(s[1..], le, c);
      TotalPreorderTies(le, c);
      InsertStable(s[0], SortBy(s[1..], le), le, c);
    }
  }
}

=== FILE: store.dfy ===
/**
 * The local-storage adapter: two slots, one holding the item collection and
 * one holding the log collection, each read and rewritten whole by every
 * operation. A slot is `None` when its key is absent or holds the empty
 * string; both read as an empty collection and both are (re)initialised.
 */
module Store {
  import opened Wrappers
  import opened Seqs
  import opened Sorting
  import opened Records

  datatype Store = Store(items: Option<seq<Item>>, logs: Option<seq<Log>>)

  /** Filters understood by `listLogs`; a `None` (or empty-string) filter imposes nothing. */
  datatype LogFilters = LogFilters(
    from: Option<int>,
    to: Option<int>,
    kind: Option<string>,
    itemId: Option<string>)

  const NoFilters := LogFilters(None, None, None, None)

  /** `init`: each slot lacking a collection gets an empty one. */
  function Init(s: Store): (r: Store)
    ensures r.items.Some? && r.logs.Some?
    ensures s.items.Some? ==> r.items == s.items
    ensures s.logs.Some? ==> r.logs == s.logs
    ensures s.items.None? ==> r.items == Some([])
    ensures s.logs.None? ==> r.logs == Some([])
  {
    Store(if s.items.None? then Some([]) else s.items,
          if s.logs.None? then Some([]) else s.logs)
  }

  /** Calling `init` twice is calling it once, and it changes no collection's contents. */
  lemma InitIdempotent(s: Store)
    ensures Init(Init(s)) == Init(s)
    ensures ListItems(Init(s)) == ListItems(s)
    ensures StoredLogs(Init(s)) == StoredLogs(s)
  {
  }

  /** `listItems`: the stored items, or none when the slot is empty. */
  function ListItems(s: Store): (r: seq<Item>)
    ensures Init(s).items == Some(r)
  {
    s.items.GetOr([])
  }

  /** The log collection as stored (before `listLogs` filters and sorts it). */
  function StoredLogs(s: Store): seq<Log> {
    s.logs.GetOr([])
  }

  /** `items.findIndex(i => i.id === id)`: the first position holding `id`. */
  function FindIndex(items: seq<Item>, id: string): (r: Option<nat>)
    ensures r.Some? ==> r.value < |items| && items[r.value].id == id
    ensures r.Some? ==> forall j :: 0 <= j < r.value ==> items[j].id != id
    ensures r.None? ==> forall j :: 0 <= j < |items| ==> items[j].id != id
  {
    if |items| == 0 then None
    else if items[0].id == id then Some(0)
    else match FindIndex(items[1..], id)
      case Some(k) => Some(k + 1)
      case None => None
  }

  /** `items.find(i => i.id === id)`: the first item holding `id`. */
  function FindItem(items: seq<Item>, id: string): (r: Option<Item>)
    ensures r.Some? ==> r.value in items && r.value.id == id
    ensures r.None? <==> forall x :: x in items ==> x.id != id
    ensures forall k :: FirstWithId(items, id, k) ==> r == Some(items[k])
  {
    match FindIndex(items, id)
    case Some(k) => Some(items[k])
    case None => None
  }

  /** `k` is where `id` first occurs among `items`. */
  predicate FirstWithId(items: seq<Item>, id: string, k: int) {
    0 <= k < |items| && items[k].id == id && forall j :: 0 <= j < k ==> items[j].id != id
  }

  /** `upsertItem`: replace the first item with the same id in place, or append. */
  function UpsertItem(s: Store, item: Item): (r: (Store, Item))
    ensures r.1 == item
    ensures r.0.logs == s.logs && r.0.items.Some?
    ensures (forall x :: x in ListItems(s) ==> x.id != item.id)
              ==> ListItems(r.0) == ListItems(s) + [item]
    ensures forall k :: FirstWithId(ListItems(s), item.id, k)
              ==> ListItems(r.0) == ListItems(s)[k := item]
  {
    var items := ListItems(s);
    var stored := match FindIndex(items, item.id)
      case Some(k) => items[k := item]
      case None => items + [item];
    (Store(Some(stored), s.logs), item)
  }

  /** Upserting the same record twice leaves what upserting it once left. */
  lemma UpsertIdempotent(s: Store, item: Item)
    ensures UpsertItem(UpsertItem(s, item).0, item).0 == UpsertItem(s, item).0
  {
    var once := UpsertItem(s, item).0;
    var items := ListItems(s);
    match FindIndex(items, item.id)
    case Some(k) =>
      assert FirstWithId(items, item.id, k);
      assert FirstWithId(ListItems(once), item.id, k);
      assert ListItems(once)[k := item] == ListItems(once);
    case None =>
      assert FirstWithId(ListItems(once), item.id, |items|);
      assert ListItems(once)[|items| := item] == ListItems(once);
  }

  /** After an upsert, looking the id up finds exactly the upserted record. */
  lemma UpsertThenFind(s: Store, item: Item)
    ensures FindItem(ListItems(UpsertItem(s, item).0), item.id) == Some(item)
  {
    var items := ListItems(s);
    var after := ListItems(UpsertItem(s, item).0);
    match FindIndex(items, item.id)
    case Some(k) =>
      assert FirstWithId(items, item.id, k);
      assert FirstWithId(after, item.id, k);
      FindIndexFirst(after, item.id, k);
    case None =>
      assert FirstWithId(after, item.id, |items|);
      FindIndexFirst(after, item.id, |items|);
  }

  /** `FindIndex` returns the first position holding the id. */
  lemma FindIndexFirst(items: seq<Item>, id: string, k: int)
    requires FirstWithId(items, id, k)
    ensures FindIndex(items, id) == Some(k)
  {
  }

  /** The logs as `listLogs` would see them: newest first. */
  predicate NewerOrSame(a: Log, b: Log) {
    a.dateTime >= b.dateTime
  }

  predicate NewestFirst(logs: seq<Log>) {
    forall i, j :: 0 <= i < j < |logs| ==> logs[i].dateTime >= logs[j].dateTime
  }

  lemma NewerOrSameIsTotalPreorder()
    ensures TotalPreorder(NewerOrSame)
  {
  }

  /** A filter option that JavaScript treats as set (present and non-empty). */
  predicate Given(o: Option<string>) {
    o.Some? && o.value != ""
  }

  /** The ids of the items of `kind`, in item order (`items.filter(...).map(i => i.id)`). */
  function IdsOfKind(items: seq<Item>, kind: string): (r: seq<string>)
    ensures forall id :: id in r <==> exists x :: x in items && x.kind == kind && x.id == id
  {
    if |items| == 0 then []
    else
      var rest := IdsOfKind(items[1..], kind);
      assert forall x :: x in items[1..] ==> x in items;
      assert forall x :: x in items ==> x == items[0] || x in items[1..];
      (if items[0].kind == kind then [items[0].id] else []) + rest
  }

  predicate FromOk(f: LogFilters, l: Log) {
    f.from.Some? ==> l.dateTime >= f.from.value
  }

  predicate ToOk(f: LogFilters, l: Log) {
    f.to.Some? ==> l.dateTime <= f.to.value
  }

  predicate KindOk(s: Store, f: LogFilters, l: Log) {
    Given(f.kind) ==> exists x :: x in ListItems(s) && x.kind == f.kind.value && x.id == l.itemId
  }

  predicate ItemIdOk(f: LogFilters, l: Log) {
    Given(f.itemId) ==> l.itemId == f.itemId.value
  }

  /** Whether a log passes every filter given (independent of how they are applied). */
  predicate Selected(s: Store, f: LogFilters, l: Log) {
    FromOk(f, l) && ToOk(f, l) && KindOk(s, f, l) && ItemIdOk(f, l)
  }

  function FromStage(logs: seq<Log>, f: LogFilters): (r: seq<Log>) {
    if f.from.Some? then Filter(logs, (l: Log) => l.dateTime >= f.from.value) else logs
  }

  function ToStage(logs: seq<Log>, f: LogFilters): (r: seq<Log>) {
    if f.to.Some? then Filter(logs, (l: Log) => l.dateTime <= f.to.value) else logs
  }

  function KindStage(logs: seq<Log>, items: seq<Item>, f: LogFilters): (r: seq<Log>) {
    if Given(f.kind) then
      var ids := IdsOfKind(items, f.kind.value);
      Filter(logs, (l: Log) => l.itemId in ids)
    else logs
  }

  function ItemIdStage(logs: seq<Log>, f: LogFilters): (r: seq<Log>) {
    if Given(f.itemId) then Filter(logs, (l: Log) => l.itemId == f.itemId.value) else logs
  }

  /** The filter stages of `listLogs`, applied one after another as the adapter does. */
  function Matching(s: Store, f: LogFilters): seq<Log> {
    ItemIdStage(KindStage(ToStage(FromStage(StoredLogs(s), f), f), ListItems(s), f), f)
  }

  lemma FromStageFilters(logs: seq<Log>, f: LogFilters)
    ensures FromStage(logs, f) == Filter(logs, (l: Log) => FromOk(f, l))
  {
    if f.from.Some? {
      FilterExt(logs, (l: Log) => l.dateTime >= f.from.value, (l: Log) => FromOk(f, l));
    } else {
      FilterAll(logs, (l: Log) => FromOk(f, l));
    }
  }

  lemma ToStageFilters(logs: seq<Log>, f: LogFilters)
    ensures ToStage(logs, f) == Filter(logs, (l: Log) => ToOk(f, l))
  {
    if f.to.Some? {
      FilterExt(logs, (l: Log) => l.dateTime <= f.to.value, (l: Log) => ToOk(f, l));
    } else {
      FilterAll(logs, (l: Log) => ToOk(f, l));
    }
  }

  lemma KindStageFilters(logs: seq<Log>, s: Store, f: LogFilters)
    ensures KindStage(logs, ListItems(s), f) == Filter(logs, (l: Log) => KindOk(s, f, l))
  {
    if Given(f.kind) {
      var ids := IdsOfKind(ListItems(s), f.kind.value);
      FilterExt(logs, (l: Log) => l.itemId in ids, (l: Log) => KindOk(s, f, l));
    } else {
      FilterAll(logs, (l: Log) => KindOk(s, f, l));
    }
  }

  lemma ItemIdStageFilters(logs: seq<Log>, f: LogFilters)
    ensures ItemIdStage(logs, f) == Filter(logs, (l: Log) => ItemIdOk(f, l))
  {
    if Given(f.itemId) {
      FilterExt(logs, (l: Log) => l.itemId == f.itemId.value, (l: Log) => ItemIdOk(f, l));
    } else {
      FilterAll(logs, (l: Log) => ItemIdOk(f, l));
    }
  }

  /** The staged filters select exactly the logs satisfying every given filter, in stored order. */
  lemma MatchingIsSelection(s: Store, f: LogFilters)
    ensures Matching(s, f) == Filter(StoredLogs(s), (l: Log) => Selected(s, f, l))
  {
    var all := StoredLogs(s);
    var P1 := (l: Log) => FromOk(f, l);
    var P2 := (l: Log) => ToOk(f, l);
    var P3 := (l: Log) => KindOk(s, f, l);
    var P4 := (l: Log) => ItemIdOk(f, l);
    var s1 := FromStage(all, f);
    FromStageFilters(all, f);
    var s2 := ToStage(s1, f);
    ToStageFilters(s1, f);
    var s3 := KindStage(s2, ListItems(s), f);
    KindStageFilters(s2, s, f);
    ItemIdStageFilters(s3, f);
    var P12 := (l: Log) => FromOk(f, l) && ToOk(f, l);
    var P123 := (l: Log) => FromOk(f, l) && ToOk(f, l) && KindOk(s, f, l);
    FilterFilter(all, P1, P2, P12);
    FilterFilter(all, P12, P3, P123);
    FilterFilter(all, P123, P4, (l: Log) => Selected(s, f, l));
  }

  /**
   * `listLogs(filters)`: exactly the stored logs passing every given filter,
   * newest first, logs with equal timestamps in stored order.
   */
  function ListLogs(s: Store, f: LogFilters): (r: seq<Log>)
    ensures forall l :: l in r <==> l in StoredLogs(s) && Selected(s, f, l)
    ensures forall l :: multiset(r)[l] == if Selected(s, f, l) then multiset(StoredLogs(s))[l] else 0
    ensures NewestFirst(r)
  {
    MatchingIsSelection(s, f);
    SortNewestFirst(Matching(s, f));
    SortBy(Matching(s, f), NewerOrSame)
  }

  lemma SortNewestFirst(logs: seq<Log>)
    ensures NewestFirst(SortBy(logs, NewerOrSame))
  {
    var r := SortBy(logs, NewerOrSame);
    NewerOrSameIsTotalPreorder();
    SortBySorted(logs, NewerOrSame);
    assert forall i, j :: 0 <= i < j < |r| ==> NewerOrSame(r[i], r[j]);
  }

  /** Stability of `listLogs`: logs sharing a timestamp keep their stored order. */
  lemma ListLogsStable(s: Store, f: LogFilters, t: int)
    ensures Filter(ListLogs(s, f), (l: Log) => l.dateTime == t)
         == Filter(Filter(StoredLogs(s), (l: Log) => Selected(s, f, l)), (l: Log) => l.dateTime == t)
  {
    var c := TimeKey(t);
    var T := (y: Log) => Tied(NewerOrSame, y, c);
    var P := (l: Log) => l.dateTime == t;
    assert forall y: Log :: T(y) == P(y);
    NewerOrSameIsTotalPreorder();
    MatchingIsSelection(s, f);
    var m := Matching(s, f);
    SortByStable(m, NewerOrSame, c);
    FilterExt(SortBy(m, NewerOrSame), T, P);
    FilterExt(m, T, P);
  }

  /** A log that sits at time `t` in the newest-first order. */
  function TimeKey(t: int): (c: Log)
    ensures c.dateTime == t
  {
    Log("", t, "", "", 0, map[], 0)
  }

  /** Without filters, `listLogs` is every stored log, newest first. */
  lemma ListAllLogs(s: Store)
    ensures multiset(ListLogs(s, NoFilters)) == multiset(StoredLogs(s))
    ensures NewestFirst(ListLogs(s, NoFilters))
  {
    var r := ListLogs(s, NoFilters);
    assert forall l :: Selected(s, NoFilters, l);
    assert forall l :: multiset(r)[l] == multiset(StoredLogs(s))[l];
  }

  /** The logs stamped at time `t`, in their order in `logs`. */
  function AtTime(logs: seq<Log>, t: int): seq<Log> {
    Filter(logs, (l: Log) => l.dateTime == t)
  }

  /** Without filters, `listLogs` keeps the logs of each timestamp in stored order. */
  lemma ListAllLogsStable(s: Store, t: int)
    ensures AtTime(ListLogs(s, NoFilters), t) == AtTime(StoredLogs(s), t)
  {
    ListLogsStable(s, NoFilters, t);
    FilterAll(StoredLogs(s), (l: Log) => Selected(s, NoFilters, l));
  }

  /** `listLogs().filter(keep)`: the logs kept, newest first, as both deletions write them back. */
  function LogsKeeping(s: Store, keep: Log -> bool): (r: seq<Log>)
    ensures forall l :: l in r <==> l in StoredLogs(s) && keep(l)
    ensures forall l :: keep(l) ==> multiset(r)[l] == multiset(StoredLogs(s))[l]
    ensures NewestFirst(r)
    ensures forall t :: AtTime(r, t) == AtTime(Filter(StoredLogs(s), keep), t)
  {
    var sorted := ListLogs(s, NoFilters);
    ListAllLogs(s);
    var kept := Filter(sorted, keep);
    FilterSubsequence(sorted, keep);
    SubsequenceNewestFirst(kept, sorted);
    forall t ensures AtTime(kept, t) == AtTime(Filter(StoredLogs(s), keep), t) {
      KeepingAtTime(s, keep, t);
    }
    kept
  }

  /** Keeping some logs and then taking one timestamp's logs commute with the stable sort. */
  lemma KeepingAtTime(s: Store, keep: Log -> bool, t: int)
    ensures AtTime(Filter(ListLogs(s, NoFilters), keep), t) == AtTime(Filter(StoredLogs(s), keep), t)
  {
    var sorted := ListLogs(s, NoFilters);
    var stored := StoredLogs(s);
    var P := (l: Log) => l.dateTime == t;
    var both := (l: Log) => keep(l) && l.dateTime == t;
    var swapped := (l: Log) => l.dateTime == t && keep(l);
    FilterFilter(sorted, keep, P, both);
    FilterFilter(sorted, P, keep, swapped);
    FilterExt(sorted, both, swapped);
    ListAllLogsStable(s, t);
    FilterFilter(stored, P, keep, swapped);
    FilterFilter(stored, keep, P, both);
    FilterExt(stored, both, swapped);
  }

  /** `items.filter(i => i.id !== id)`. */
  function ItemsWithout(items: seq<Item>, id: string): (r: seq<Item>)
    ensures forall x :: x in r <==> x in items && x.id != id
    ensures forall x: Item :: x.id != id ==> multiset(r)[x] == multiset(items)[x]
    ensures Subsequence(r, items)
    ensures (forall x :: x in items ==> x.id != id) ==> r == items
  {
    var kept := Filter(items, (x: Item) => x.id != id);
    FilterSubsequence(items, (x: Item) => x.id != id);
    assert (forall x :: x in items ==> x.id != id) ==> kept == items by {
      if forall x :: x in items ==> x.id != id {
        FilterAll(items, (x: Item) => x.id != id);
      }
    }
    kept
  }

  /** `deleteItem(id)`: drop the item and, through `listLogs`, every log of it. */
  function DeleteItem(s: Store, id: string): (r: Store)
    ensures forall x :: x in ListItems(r) <==> x in ListItems(s) && x.id != id
    ensures forall x: Item :: x.id != id ==> multiset(ListItems(r))[x] == multiset(ListItems(s))[x]
    ensures Subsequence(ListItems(r), ListItems(s))
    ensures (forall x :: x in ListItems(s) ==> x.id != id) ==> ListItems(r) == ListItems(s)
    ensures forall l :: l in StoredLogs(r) <==> l in StoredLogs(s) && l.itemId != id
    ensures forall l: Log :: l.itemId != id ==> multiset(StoredLogs(r))[l] == multiset(StoredLogs(s))[l]
    ensures NewestFirst(StoredLogs(r))
    ensures forall t :: AtTime(StoredLogs(r), t) == AtTime(Filter(StoredLogs(s), (l: Log) => l.itemId != id), t)
  {
    var items := ItemsWithout(ListItems(s), id);
    var written := Store(Some(items), s.logs);
    Store(Some(items), Some(LogsKeeping(written, (l: Log) => l.itemId != id)))
  }

  /** Dropping logs from a newest-first list leaves it newest first. */
  lemma {:induction false} SubsequenceNewestFirst(a: seq<Log>, b: seq<Log>)
    requires Subsequence(a, b) && NewestFirst(b)
    ensures NewestFirst(a)
    decreases |b|
  {
    if |a| > 0 {
      if a[0] == b[0] {
        SubsequenceNewestFirst(a[1..], b[1..]);
        forall j | 0 < j < |a|
          ensures a[0].dateTime >= a[j].dateTime
        {
          assert a[j] in b[1..] by { SubsequenceMembers(a[1..], b[1..], j - 1); }
        }
      } else {
        SubsequenceNewestFirst(a, b[1..]);
      }
    }
  }

  /** Every element of a subsequence occurs in the longer sequence. */
  lemma {:induction false} SubsequenceMembers<T>(a: seq<T>, b: seq<T>, k: nat)
    requires Subsequence(a, b) && k < |a|
    ensures a[k] in b
    decreases |b|
  {
    if a[0] == b[0] {
      if k > 0 {
        SubsequenceMembers(a[1..], b[1..], k - 1);
      }
    } else {
      SubsequenceMembers(a, b[1..], k);
    }
  }

  /** `addLog(log)`: the stored logs re-sorted newest first, then `log` appended last. */
  function AddLog(s: Store, log: Log): (r: (Store, Log))
    ensures r.1 == log
    ensures r.0.items == s.items
    ensures |StoredLogs(r.0)| == |StoredLogs(s)| + 1
    ensures StoredLogs(r.0)[|StoredLogs(s)|] == log
    ensures multiset(StoredLogs(r.0)[..|StoredLogs(s)|]) == multiset(StoredLogs(s))
    ensures NewestFirst(StoredLogs(r.0)[..|StoredLogs(s)|])
    ensures forall t :: AtTime(StoredLogs(r.0)[..|StoredLogs(s)|], t) == AtTime(StoredLogs(s), t)
  {
    var sorted := ListLogs(s, NoFilters);
    ListAllLogs(s);
    forall t ensures AtTime(sorted, t) == AtTime(StoredLogs(s), t) {
      ListAllLogsStable(s, t);
    }
    var logs := sorted + [log];
    assert logs[..|StoredLogs(s)|] == sorted;
    (Store(s.items, Some(logs)), log)
  }

  /** `deleteLog(id)`: the stored logs newest first, without those carrying `id`. */
  function DeleteLog(s: Store, id: string): (r: Store)
    ensures r.items == s.items
    ensures forall l :: l in StoredLogs(r) <==> l in StoredLogs(s) && l.id != id
    ensures forall l: Log :: l.id != id ==> multiset(StoredLogs(r))[l] == multiset(StoredLogs(s))[l]
    ensures NewestFirst(StoredLogs(r))
    ensures forall t :: AtTime(StoredLogs(r), t) == AtTime(Filter(StoredLogs(s), (l: Log) => l.id != id), t)
  {
    Store(s.items, Some(LogsKeeping(s, (l: Log) => l.id != id)))
  }
}

=== FILE: text.dfy ===
/**
 * The handful of JavaScript string operations the app relies on: decimal
 * rendering of integers (template literals), `parseInt`, `trim` and
 * two-digit zero padding.
 */
module Text {
  import opened Wrappers

  predicate IsDigit(c: char) {
    '0' <= c <= '9'
  }

  predicate AllDigits(s: string) {
    forall k :: 0 <= k < |s| ==> IsDigit(s[k])
  }

  function DigitChar(d: nat): (c: char)
    requires d < 10
    ensures IsDigit(c)
  {
    "0123456789"[d]
  }

  function DigitValue(c: char): nat
    requires IsDigit(c)
  {
    (c as int - '0' as int) as nat
  }

  /** The number a string of decimal digits denotes. */
  function DigitsValue(s: string): nat
    requires AllDigits(s)
  {
    if |s| == 0 then 0 else 10 * DigitsValue(s[..|s| - 1]) + DigitValue(s[|s| - 1])
  }

  /** Decimal rendering of a natural number, as JavaScript writes it. */
  function NatToString(n: nat): (r: string)
    ensures 1 <= |r| && AllDigits(r)
    ensures 1 < |r| ==> r[0] != '0'
  {
    if n < 10 then [DigitChar(n)] else NatToString(n / 10) + [DigitChar(n % 10)]
  }

  /** Reading back a rendered natural number gives the number. */
  lemma {:induction false} NatToStringRoundTrip(n: nat)
    ensures DigitsValue(NatToString(n)) == n
  {
    var r := NatToString(n);
    if n < 10 {
      assert r[..0] == [];
    } else {
      NatToStringRoundTrip(n / 10);
      assert r[..|r| - 1] == NatToString(n / 10);
    }
  }

  /** Decimal rendering of an integer: a minus sign, then the magnitude. */
  function IntToString(n: int): (r: string)
    ensures 1 <= |r|
    ensures n < 0 <==> r[0] == '-'
  {
    if n < 0 then "-" + NatToString(-n) else NatToString(n)
  }

  /** ECMAScript WhiteSpace and LineTerminator code points (what `trim` and `parseInt` skip). */
  predicate IsWhitespace(c: char) {
    var u := c as int;
    || 0x09 <= u <= 0x0D               // tab, line feed, vertical tab, form feed, carriage return
    || u == 0x20 || u == 0xA0 || u == 0x1680
    || 0x2000 <= u <= 0x200A
    || u == 0x2028 || u == 0x2029 || u == 0x202F || u == 0x205F
    || u == 0x3000 || u == 0xFEFF
  }

  /** `s` without its leading whitespace. */
  function TrimStart(s: string): string {
    if |s| > 0 && IsWhitespace(s[0]) then TrimStart(s[1..]) else s
  }

  /** `TrimStart` drops exactly the leading whitespace: a suffix is kept, everything before it
      is whitespace, and what is kept does not start with whitespace. */
  lemma {:induction false} TrimStartSpec(s: string)
    ensures var r := TrimStart(s);
            && |r| <= |s| && r == s[|s| - |r|..]
            && (forall k :: 0 <= k < |s| - |r| ==> IsWhitespace(s[k]))
            && (|r| > 0 ==> !IsWhitespace(r[0]))
  {
    if |s| > 0 && IsWhitespace(s[0]) {
      TrimStartSpec(s[1..]);
      var r := TrimStart(s[1..]);
      assert s[1..][|s| - 1 - |r|..] == s[|s| - |r|..];
      forall k | 0 <= k < |s| - |r|
        ensures IsWhitespace(s[k])
      {
        if k > 0 {
          assert s[k] == s[1..][k - 1];
        }
      }
    }
  }

  /** `s` without its trailing whitespace. */
  function TrimEnd(s: string): string {
    if |s| > 0 && IsWhitespace(s[|s| - 1]) then TrimEnd(s[..|s| - 1]) else s
  }

  /** `TrimEnd` drops exactly the trailing whitespace: a prefix is kept, everything after it
      is whitespace, and what is kept does not end with whitespace. */
  lemma {:induction false} TrimEndSpec(s: string)
    ensures var r := TrimEnd(s);
            && |r| <= |s| && r == s[..|r|]
            && (forall k :: |r| <= k < |s| ==> IsWhitespace(s[k]))
            && (|r| > 0 ==> !IsWhitespace(r[|r| - 1]))
  {
    if |s| > 0 && IsWhitespace(s[|s| - 1]) {
      var t := s[..|s| - 1];
      TrimEndSpec(t);
      var r := TrimEnd(t);
      assert t[..|r|] == s[..|r|];
      forall k | |r| <= k < |s|
        ensures IsWhitespace(s[k])
      {
        if k < |s| - 1 {
          assert s[k] == t[k];
        }
      }
    }
  }

  /** `String.prototype.trim`: empty exactly for all-whitespace input, and otherwise
      starting and ending with a non-whitespace character. */
  function Trim(s: string): (r: string)
    ensures |r| <= |s|
    ensures var i := |s| - |TrimStart(s)|;
            && 0 <= i && i + |r| <= |s| && r == s[i..i + |r|]
            && (forall k :: 0 <= k < i ==> IsWhitespace(s[k]))
            && (forall k :: i + |r| <= k < |s| ==> IsWhitespace(s[k]))
    ensures r == [] <==> forall k :: 0 <= k < |s| ==> IsWhitespace(s[k])
    ensures r != [] ==> !IsWhitespace(r[0]) && !IsWhitespace(r[|r| - 1])
  {
    var t := TrimStart(s);
    TrimStartSpec(s);
    TrimEndSpec(t);
    var r := TrimEnd(t);
    var i := |s| - |t|;
    assert r == [] ==> |t| == 0;
    assert r != [] ==> r[0] == t[0];
    assert r == s[i..i + |r|];
    forall k | i + |r| <= k < |s|
      ensures IsWhitespace(s[k])
    {
      assert s[k] == t[k - i];
    }
    r
  }

  /** The longest prefix of `s` made of decimal digits. */
  function LeadingDigits(s: string): (r: string)
    ensures |r| <= |s| && r == s[..|r|] && AllDigits(r)
    ensures |r| < |s| ==> !IsDigit(s[|r|])
  {
    if |s| > 0 && IsDigit(s[0]) then [s[0]] + LeadingDigits(s[1..]) else []
  }

  /**
   * `parseInt(s)` with the default radix on the strings a form field can hold:
   * leading whitespace is skipped, an optional sign is read, then the longest run of
   * decimal digits; without digits the result is NaN (`None`).
   */
  function ParseInt(s: string): (r: Option<int>)
    ensures var u := TrimStart(s);
            r.Some? <==> (|u| > 0 && IsDigit(u[0])) || (|u| > 1 && (u[0] == '-' || u[0] == '+') && IsDigit(u[1]))
  {
    var u := TrimStart(s);
    if |u| > 0 && u[0] == '-' then
      match ParseDigits(u[1..])
      case Some(m) => Some(-m)
      case None => None
    else if |u| > 0 && u[0] == '+' then ParseDigits(u[1..])
    else ParseDigits(u)
  }

  /** The value of the digit run that starts `body`, or `None` when it starts with no digit. */
  function ParseDigits(body: string): (r: Option<int>)
    ensures r.Some? <==> |body| > 0 && IsDigit(body[0])
  {
    var digits := LeadingDigits(body);
    if |digits| == 0 then None else Some(DigitsValue(digits))
  }

  /** The digit run of `s + t` is `s` when `s` is all digits and `t` does not start with one. */
  lemma {:induction false} LeadingDigitsOfDigits(s: string, t: string)
    requires AllDigits(s)
    requires |t| == 0 || !IsDigit(t[0])
    ensures LeadingDigits(s + t) == s
  {
    if |s| > 0 {
      assert (s + t)[1..] == s[1..] + t;
      LeadingDigitsOfDigits(s[1..], t);
    } else {
      assert s + t == t;
    }
  }

  /** Parsing a rendered integer gives the integer back, and text after its digits is ignored. */
  lemma ParseIntRoundTrip(n: int, rest: string)
    requires |rest| == 0 || !IsDigit(rest[0])
    ensures ParseInt(IntToString(n) + rest) == Some(n)
  {
    var m: nat := if n < 0 then -n else n;
    var digits := NatToString(m);
    NatToStringRoundTrip(m);
    ParseDigitsThenText(digits, rest);
    if n < 0 {
      SignedText(digits, rest);
      assert IntToString(n) + rest == ['-'] + digits + rest;
      ParseNegative(IntToString(n) + rest, m);
    } else {
      assert IntToString(n) + rest == digits + rest;
      ParseUnsigned(digits + rest, m);
    }
  }

  /** Dropping the sign from `-` + `a` + `b` leaves `a + b`. */
  lemma SignedText(a: string, b: string)
    requires |a| > 0
    ensures var u := ['-'] + a + b;
            |u| > 1 && u[0] == '-' && u[1] == a[0] && u[1..] == a + b
  {
  }

  /** The digit run read from `digits + rest` is `digits`, when `rest` starts with no digit. */
  lemma ParseDigitsThenText(digits: string, rest: string)
    requires 1 <= |digits| && AllDigits(digits)
    requires |rest| == 0 || !IsDigit(rest[0])
    ensures |digits + rest| > 0 && IsDigit((digits + rest)[0])
    ensures ParseDigits(digits + rest) == Some(DigitsValue(digits))
  {
    LeadingDigitsOfDigits(digits, rest);
    assert (digits + rest)[0] == digits[0];
  }

  /** A text that starts with a digit or a minus sign has no leading whitespace to trim. */
  lemma TrimStartDigit(s: string)
    requires |s| > 0 && (IsDigit(s[0]) || s[0] == '-')
    ensures TrimStart(s) == s
  {
  }

  /** `parseInt` of a text that starts with a digit run reads that run. */
  lemma ParseUnsigned(body: string, m: int)
    requires |body| > 0 && IsDigit(body[0]) && ParseDigits(body) == Some(m)
    ensures ParseInt(body) == Some(m)
  {
    TrimStartDigit(body);
  }

  /** `parseInt` of a minus sign followed by a digit run reads the negated run. */
  lemma ParseNegative(u: string, m: int)
    requires |u| > 1 && u[0] == '-' && IsDigit(u[1]) && ParseDigits(u[1..]) == Some(m)
    ensures ParseInt(u) == Some(-m)
  {
    TrimStartDigit(u);
  }

  /** `n.toString().padStart(2, '0')` for the seconds of a clock display. */
  function Pad2(n: nat): (r: string)
    requires n < 100
    ensures |r| == 2 && AllDigits(r)
    ensures DigitsValue(r) == n
  {
    NatToStringRoundTrip(n);
    var digits := NatToString(n);
    if |digits| < 2 then
      assert digits[..0] == [];
      "0" + digits
    else digits
  }
}

=== FILE: wrappers.dfy ===
/** Failure-carrying datatypes shared by the rest of the model. */
module Wrappers {

  /** An optional value; in the model it stands for JavaScript's `undefined`/`null`. */
  datatype Option<+T> = None | Some(value: T) {

    /** The carried value, or `default` when there is none. */
    function GetOr(default: T): T {
      match this
      case Some(v) => v
      case None => default
    }
  }

  /** The outcome of an operation that can be refused. */
  datatype Result<+T, +E> = Ok(value: T) | Err(error: E)
}
